=== FILE: README.md ===
# boli-blog-downloader in Dafny

This project models the decision logic of the blog downloader's
`DownloaderApp` (`src/boli_blog_downloader/app.py`). The crawl goes like this:

1. It fetches the root page and reads the archive widget's links into monthly items, in reverse document order.
2. It visits every monthly listing. All but the last item use the page cache. The last item bypasses it; that item is the widget's first link in document order. Whether this link is the most recent month depends on the order in which the site lists its archive.
3. For each article on a listing, it derives the post number, zero-padded to at least ten digits, and fetches the post page.
4. It collects the image URLs of the post's content block and keeps those whose URL contains `googleusercontent.com` or `blogspot.com`. This is a substring test on the whole URL, not a check of the host name.
5. Each kept image is written under a name of the form `YYYY-MM-<id>-<subid><ext>`. The extension comes from the image's leading bytes, or from the URL path when the bytes match no known signature, or is `.dat` when the path has no extension either.

The modules follow that structure:

- `Results`: `Option` and `Result`.
- `Text`: the Python string operations the crawler uses. These are `split`, `filter(None, …)`, `reversed`, `find`, `rfind` and single-character `replace`.
- `Decimal`: digit strings, `int()` of a digit string (including CPython's default limit of 4300 digits), and the zero-padded `{n:0Wd}` format.
- `PathExt`: `os.path.splitext` on a POSIX path.
- `ImageType`: the signature test on the first 32 bytes and the choice of extension.
- `Records`: the archive item, the parsed page elements the crawler inspects, the errors that end a run, and the actions a run performs.
- `PostId`: the post number derived from an article's `id`.
- `Archive`: the archive widget's links, their year and month, and the processing schedule with its refresh flag.
- `Images`: candidate collection, the host allow-list, output names and the per-post sub-index.
- `PageCache`: the cache file name and the read-through/write-through page download. A cached page is read back in text mode, so its line ends are normalised.
- `Runs`: a stage of the crawl as a trace of actions and an outcome. Stages run one after another, and a loop runs one stage per element and stops at the first exception.
- `Crawl`: the whole run as a stage, and how `run()` turns that outcome into a return value or an escaping exception.

Pages reach the model already parsed. A `Crawl.Site` value says what the crawler finds:

- the root page's archive widget;
- the articles of a listing page;
- the images of a post page;
- the bytes behind an image URL;
- the path component of a URL.

A run is the sequence of its effects: page requests with their `use_cache` flag, skipped image candidates, and image writes. It ends either completed or aborted with an error.

Three facts of the code shape the model:

- **GIF87a.** Only `GIF89a` is tested as a GIF signature (lines 185-190). A GIF87a image is therefore named after its URL's extension, or `.dat` (`ImageType.Gif87aNotRecognised`).
- **Exit code.** `run()` catches only `DownloaderException` and `requests.HTTPError` (line 56). So in the model:
  - A `ValueError` from `int()` propagates out of `run()` (`Crawl.Exit.Raised`). This happens for a non-numeric post number, or an archive href whose last two segments are not numbers. It also happens for a numeral longer than 4300 digits.
  - An `IndexError` from `tokens[1]` propagates as well. This happens for an archive href with fewer than two non-empty segments.
- **Shared identifiers.** The image name uses the padded value of the post number, not the article ID (line 119). Two articles such as `post-42` and `page-042` therefore share the identifier `0000000042`. When both are listed under the same month, their images with the same sub-index and extension get the same name, so the later one overwrites the earlier one (`PostId.Collision`). Under different months the names differ in the year or month field (lines 209-212).

## Model

| member | source | states |
|---|---|---|
| Text.Split | src/boli_blog_downloader/app.py:115 | `str.split(sep)` gives one more piece than there are separators, and no piece contains the separator |
| Text.JoinSplit | src/boli_blog_downloader/app.py:115 | joining the pieces of a split with the separator gives back the original string |
| Text.SplitJoin | src/boli_blog_downloader/app.py:241 | splitting a join of separator-free pieces gives back the pieces, empty ones included |
| Text.NonEmpty | src/boli_blog_downloader/app.py:241 | `filter(None, parts)` yields only non-empty pieces and never more pieces than it was given; `Text.NonEmptyAppend` and `Text.NonEmptyOne` pin down order and multiplicity |
| Text.NonEmptyKeeps | src/boli_blog_downloader/app.py:241 | every piece `filter(None, parts)` yields is one of the pieces, and every non-empty piece is yielded |
| Text.NonEmptyOne | src/boli_blog_downloader/app.py:241 | a single piece is kept exactly when it is non-empty |
| Text.NonEmptyAppend | src/boli_blog_downloader/app.py:241 | filtering a concatenation is the concatenation of the filtered parts, so the kept pieces keep their order and multiplicity |
| Text.Reverse | src/boli_blog_downloader/app.py:241 | `reversed` puts element `i` at position `n-1-i` |
| Text.FindFromSpec | src/boli_blog_downloader/app.py:172 | `str.find` returns the first occurrence at or after the start, or -1 exactly when there is none |
| Text.Contains | src/boli_blog_downloader/app.py:172 | `find(...) >= 0` holds exactly when the needle occurs somewhere in the string |
| Text.ReplaceChar | src/boli_blog_downloader/app.py:254 | replacing a character keeps the length and changes exactly the positions holding that character |
| Text.LastIndexOf | src/boli_blog_downloader/app.py:198 | `rfind` gives the last position of the character, or -1 when it does not occur |
| Text.LastIndexOfIs | src/boli_blog_downloader/app.py:198 | a position holding the character with none after it is the one `rfind` returns (and -1 when the character is absent), so `rfind` is pinned down by that property |
| Decimal.Show | src/boli_blog_downloader/app.py:209 | a number prints as a non-empty digit string with no leading zero (except 0 itself), a single digit exactly below 10 |
| Decimal.ShowValue | src/boli_blog_downloader/app.py:209 | reading back the printed digits gives the number |
| Decimal.ZeroPad | src/boli_blog_downloader/app.py:209 | `{n:0Wd}` is all digits and has length `max(len(str(n)), W)`, so it pads but never truncates |
| Decimal.ZeroPadValue | src/boli_blog_downloader/app.py:119 | a zero-padded number still denotes the same number |
| Decimal.ParseInt | src/boli_blog_downloader/app.py:119 | `int()` accepts exactly the digit strings of 1 to 4300 characters (CPython's default limit), giving their value |
| Decimal.Canonical | src/boli_blog_downloader/app.py:119 | every numeral is its canonical printing preceded by zeros |
| Decimal.PadNumeral | src/boli_blog_downloader/app.py:119 | re-padding a numeral of at most `W` digits to width `W` just prefixes zeros to the numeral as written |
| Decimal.ParsePadded | src/boli_blog_downloader/app.py:243 | `int()` of a zero-padded number gives the number back (round trip), unless the numeral is longer than 4300 digits |
| PathExt.HasNonDotBefore | src/boli_blog_downloader/app.py:198 | the scan for a non-dot character agrees with its existential definition |
| PathExt.SplitExt | src/boli_blog_downloader/app.py:198 | `splitext` splits the path into root and extension that concatenate to the path; the extension is empty or a '.' followed by no further '.' or '/' |
| PathExt.ExtensionCharacterised | src/boli_blog_downloader/app.py:196-200 | the extension is non-empty exactly when the last component has a dot after a non-dot character, and is then the suffix from the last dot |
| PathExt.WebpExample | src/boli_blog_downloader/app.py:198 | `/img/photo.webp` has extension `.webp` |
| PathExt.LastDotExample | src/boli_blog_downloader/app.py:198 | `/a.tar.gz` has extension `.gz` (only the last dot counts) |
| PathExt.LeadingDotExample | src/boli_blog_downloader/app.py:198 | `/images/.hidden` has no extension (leading dots do not start one) |
| ImageType.Head | src/boli_blog_downloader/app.py:181 | slicing `data[0:n]` is the prefix of length `min(n, len(data))` and never fails |
| ImageType.WindowMatch | src/boli_blog_downloader/app.py:181-189 | comparing a slice of the 32-byte window with a short signature is the same as asking whether the data starts with it |
| ImageType.Sniff | src/boli_blog_downloader/app.py:181-195 | the result is `.png`, `.jpg`, `.gif` or none, each exactly when its signature is the first of the three the data starts with |
| ImageType.ChooseExtension | src/boli_blog_downloader/app.py:181-200 | the extension is non-empty, starts with '.', has no '/'; it is the sniffed one if any, else the URL path's suffix from its last dot when the path has an extension, else `.dat` |
| ImageType.PngWinsOverUrl | src/boli_blog_downloader/app.py:185-186 | PNG data is written as `.png` whatever the URL says |
| ImageType.SignaturesExclusive | src/boli_blog_downloader/app.py:185-190 | no data starts with two of the three signatures, so the test order never decides between matches |
| ImageType.SniffIgnoresTail | src/boli_blog_downloader/app.py:181-190 | bytes after the tenth never change the signature test |
| ImageType.Gif87aNotRecognised | src/boli_blog_downloader/app.py:189-190 | a `GIF87a` header matches no signature |
| Records.ToInt | src/boli_blog_downloader/app.py:243 | `int(s)` succeeds exactly on digit strings of 1 to 4300 characters, with their value, and otherwise fails with a `ValueError` naming `s` |
| PostId.TwoTokens | src/boli_blog_downloader/app.py:115-116 | a string with exactly one separator splits into the parts before and after it |
| PostId.NumericId | src/boli_blog_downloader/app.py:115-119 | the ID fails as unsupported exactly when it does not have exactly one '-'; otherwise it succeeds exactly when the part after '-' is a numeral, of at most 4300 digits. It then denotes that numeral zero-padded to exactly `max(len(str(n)), 10)` digits; otherwise it fails with `ValueError` |
| PostId.PadsShortNumber | src/boli_blog_downloader/app.py:119 | a number part of at most ten digits is left-padded with zeros to exactly ten |
| PostId.Example | src/boli_blog_downloader/app.py:115-119 | `post-42` gives `0000000042` |
| PostId.SameNumberSameId | src/boli_blog_downloader/app.py:115-119 | two IDs whose number parts denote the same value get the same identifier, whatever their prefixes and leading zeros |
| PostId.Collision | src/boli_blog_downloader/app.py:115-119 | the different IDs `post-42` and `page-042` both give `0000000042` |
| Archive.ParseArchiveHref | src/boli_blog_downloader/app.py:241-243 | year and month are the second-to-last and last non-empty segments; fewer than two segments is an `IndexError`; a bad year is reported before a bad month |
| Archive.ParseAnchor | src/boli_blog_downloader/app.py:236-243 | an anchor without `href` is a downloader error; otherwise the result is `Archive.ParseArchiveHref` of its href, so year and month are its last two non-empty segments, and the item keeps the href |
| Archive.TraverseReversed | src/boli_blog_downloader/app.py:235-247 | a traversal that succeeds yields one item per element |
| Archive.TraverseReversedSpec | src/boli_blog_downloader/app.py:235-249 | the reversed traversal succeeds exactly when every element does, yields results in reverse order, and a failure is that of the last failing element |
| Archive.ParseAnchorsReversed | src/boli_blog_downloader/app.py:235-249 | the widget parses exactly when every link does; the items are in reverse document order; an error is that of the last failing link in document order |
| Archive.ParseArchive | src/boli_blog_downloader/app.py:226-249 | a missing widget is `Archive not found`; otherwise the result is the parse of its anchors |
| Archive.Segments | src/boli_blog_downloader/app.py:241 | the segments of an href are non-empty, contain no '/', and are at most one more than its '/' count; `Archive.HrefSegments` gives them exactly for the site's link format |
| Archive.HrefSegments | src/boli_blog_downloader/app.py:241 | `<scheme>//<host>/<y>/<m>/` has the segments scheme, host, year and month |
| Archive.ParseAnchors | src/boli_blog_downloader/app.py:235-249 | a successful parse yields one item per anchor; `Archive.ParseAnchorsReversed` gives the order and the failure |
| Archive.MonthHrefRoundTrip | src/boli_blog_downloader/app.py:241-243 | a month link in the site's format `…/YYYY/MM/` parses back to its year and month; a year numeral longer than 4300 digits is the `ValueError` reported instead |
| Archive.Schedule | src/boli_blog_downloader/app.py:62-73 | every item is processed once, in list order, and only the last one is refreshed |
| Images.ImageError | src/boli_blog_downloader/app.py:137-154 | a missing `src` is reported before a missing parent `href` |
| Images.Contribution | src/boli_blog_downloader/app.py:137-156 | an image contributes exactly when well formed; the error otherwise is the image's error |
| Images.CollectCandidates | src/boli_blog_downloader/app.py:131-156 | a successful collection has one candidate per image plus one per anchor parent; `Images.CandidatesLayout` places each of them |
| Images.CandidatesSucceed | src/boli_blog_downloader/app.py:131-156 | collecting the candidates succeeds exactly when every image is well formed |
| Images.CandidatesFirstError | src/boli_blog_downloader/app.py:133-154 | a failed collection has the error of the first malformed image; every image before it is well formed |
| Images.CandidatesLayout | src/boli_blog_downloader/app.py:131-156 | a successful collection has one entry per image plus one per anchor parent: each image's `src` at its position, then its anchor's `href`, in document order |
| Images.AnyFound | src/boli_blog_downloader/app.py:170-174 | the loop reports a match only when `find` locates one of the fragments; `Images.AnyFoundMeaning` gives the converse |
| Images.AnyFoundMeaning | src/boli_blog_downloader/app.py:170-174 | the loop with `break` finds a fragment exactly when one of the fragments occurs in the URL |
| Images.AllowListMeaning | src/boli_blog_downloader/app.py:33-36 | a URL is allowed exactly when it contains `googleusercontent.com` or `blogspot.com` anywhere |
| Images.Kept | src/boli_blog_downloader/app.py:170-177 | the kept candidates are candidates, no more of them than were given; `Images.KeptSpec` says exactly which are kept |
| Images.KeptSpec | src/boli_blog_downloader/app.py:170-177 | every kept candidate passes the allow-list, and every candidate that passes it is kept |
| Images.OutputName | src/boli_blog_downloader/app.py:209-212 | the name ends in the extension and is as long as the padded year, month and sub-index, the ID, the extension and three dashes; `Images.OutputNameInjective` reads it back |
| Images.OutputNameInjective | src/boli_blog_downloader/app.py:209-212 | distinct (year, month, ID string, sub-index, extension) give distinct file names; distinct posts that share an ID string (`PostId.Collision`) and are listed under the same month do collide, for images with the same sub-index and extension |
| Images.OutputNameHasNoSlash | src/boli_blog_downloader/app.py:209-212 | an output name never contains '/', so the file lands directly in `images/` |
| Images.NameExample | src/boli_blog_downloader/app.py:209-212 | the first two images of post 42 of October 2023 are `2023-10-0000000042-0000.png` and `…-0001.jpg` |
| Images.PlanImages | src/boli_blog_downloader/app.py:158-212 | one action per candidate; `Images.PlanImagesSpec` and `Images.PlanWritesKept` say which |
| Images.PlanImagesSpec | src/boli_blog_downloader/app.py:158-212 | each candidate becomes one action, in order, and none requests a page; a candidate is written exactly when allowed, under the name built from its sub-index and its extension |
| Images.PlanWritesKept | src/boli_blog_downloader/app.py:158-212 | the writes are exactly the allowed candidates in order, with consecutive sub-indices; a skipped candidate uses no sub-index |
| PageCache.CacheFileName | src/boli_blog_downloader/app.py:254-255 | the cache name maps ':' and '/' to '_', keeps everything else and appends `.html`, so it has neither ':' nor '/' |
| PageCache.SameCacheFile | src/boli_blog_downloader/app.py:254-255 | two hrefs share a cache file exactly when they agree once ':' and '/' both read as '_' |
| PageCache.CacheFileCollision | src/boli_blog_downloader/app.py:254-255 | the distinct hrefs `a:b` and `a/b` share a cache file |
| PageCache.Universal | src/boli_blog_downloader/app.py:260-262 | text-mode reading leaves no '\r', never lengthens the text, and changes nothing in a text without '\r'; `PageCache.UniversalUnits` and `PageCache.UniversalAppend` fix it position by position |
| PageCache.UniversalUnits | src/boli_blog_downloader/app.py:260-262 | a single character reads back as itself except '\r', which reads back as '\n'; "\r\n" reads back as one '\n' |
| PageCache.UniversalAppend | src/boli_blog_downloader/app.py:260-262 | reading back a concatenation reads back each part, except where the first part ends in a '\r' and the second starts with '\n'; with the units and `PageCache.LoneCR`, every "\r\n" and every lone '\r' becomes exactly one '\n' in place |
| PageCache.LoneCR | src/boli_blog_downloader/app.py:260-262 | a '\r' not followed by '\n' reads back as one '\n', and the text after it is read back on its own |
| PageCache.UniversalFixed | src/boli_blog_downloader/app.py:260-262 | reading back changes a text exactly when it holds a '\r'; reading back twice is reading back once |
| PageCache.UniversalExample | src/boli_blog_downloader/app.py:260-262 | "\r\n" and a lone '\r' each read back as '\n' |
| PageCache.DownloadPage | src/boli_blog_downloader/app.py:251-271 | the network is used exactly when the cache is bypassed or misses; its text is returned as received and stored under the page's name, nothing else changing; a cache hit returns the stored text read back in text mode and leaves the cache as it was |
| PageCache.CachedAfterDownload | src/boli_blog_downloader/app.py:257-271 | after a download, a cached download of the same href returns that text read back in text mode, without the network, leaving the cache unchanged; a text without '\r' comes back exactly |
| PageCache.LineEndsChangeOnReread | src/boli_blog_downloader/app.py:257-271 | a page served as `a\r\nb` is returned as such from the network and as `a\nb` from the cache |
| PageCache.RefreshBypassesCache | src/boli_blog_downloader/app.py:257-266 | with `use_cache=False` the page always comes from the network |
| PageCache.CollisionServesOtherPage | src/boli_blog_downloader/app.py:254-262 | after `a:b` is downloaded, a cached download of `a/b` returns the page of `a:b`, read back in text mode |
| Crawl.VisitPost | src/boli_blog_downloader/app.py:123-156 | the post page is requested first, through the cache; a missing content block or a malformed image aborts with its error before any image is considered |
| Crawl.VisitCompletes | src/boli_blog_downloader/app.py:123-212 | a visited post completes exactly when its content block exists and all its images are well formed |
| Crawl.VisitWrites | src/boli_blog_downloader/app.py:158-212 | a completed visit writes the allowed candidates in order with sub-indices 0, 1, 2, … |
| Crawl.ProcessPost | src/boli_blog_downloader/app.py:112-156 | a bad post ID aborts before the post page is requested; otherwise the post is visited |
| Crawl.PostWrites | src/boli_blog_downloader/app.py:158-212 | a post completes exactly when its ID, content block and images are well formed, and then writes its allowed candidates in order with sub-indices from 0 |
| Crawl.BadPostNumberEscapes | src/boli_blog_downloader/app.py:56-58 | a post number `int()` rejects aborts with a `ValueError`, which `run()` does not catch |
| Crawl.ArticleTarget | src/boli_blog_downloader/app.py:86-108 | an article yields its ID and post href, or the error for the first missing piece in the order ID, title, title anchor, href |
| Crawl.ProcessArticle | src/boli_blog_downloader/app.py:86-110 | an article whose lookup fails aborts with that error and requests nothing; otherwise its post is processed with the looked-up ID and href |
| Runs.RunEachCompletes | src/boli_blog_downloader/app.py:85-110 | a loop whose steps may raise completes exactly when the step of every element completes |
| Runs.RunEachFirstError | src/boli_blog_downloader/app.py:85-110 | an aborted loop ends as the step of its first failing element; every earlier step completed |
| Crawl.ProcessArticles | src/boli_blog_downloader/app.py:84-110 | the articles run in document order, each only after the previous completed; `Crawl.ArticlesComplete` and `Crawl.ArticlesFirstError` give the outcome |
| Crawl.ArticlesComplete | src/boli_blog_downloader/app.py:84-110 | a listing completes exactly when each of its articles does |
| Crawl.ArticlesFirstError | src/boli_blog_downloader/app.py:84-110 | an aborted listing ends as its first failing article does; every article before it completed |
| Crawl.ProcessItem | src/boli_blog_downloader/app.py:75-110 | an item first requests its listing page, bypassing the cache exactly when refreshed; then every article of the listing is processed, and the item ends as the articles do |
| Crawl.ProcessSchedule | src/boli_blog_downloader/app.py:68-73 | the schedule's entries run in order, each only after the previous completed; `Crawl.ScheduleUncached` gives its cache bypasses |
| Crawl.ProcessItems | src/boli_blog_downloader/app.py:62-73 | an empty item list does nothing; otherwise the items run as `Archive.Schedule` orders them: in list order, only the last refreshed |
| Crawl.Crawl | src/boli_blog_downloader/app.py:44-54 | the root page is requested first through the cache; a bad archive widget aborts before any listing is requested; a parsed widget's items are all processed after the root page |
| Crawl.ExitOf | src/boli_blog_downloader/app.py:44-60 | `run()` returns 0 exactly on completion and 1 exactly on a downloader error; `ValueError` and `IndexError` escape |
| Crawl.RunApp | src/boli_blog_downloader/app.py:41-60 | `run()` returns 0 exactly when the crawl completes and 1 exactly when it stops on a downloader error; a root page without the archive widget returns 1 |
| Crawl.VisitSafe | src/boli_blog_downloader/app.py:170-212 | with a numeric post ID, every write of a visit is of a URL containing an allow-listed fragment to a name without '/' |
| Crawl.PostSafe | src/boli_blog_downloader/app.py:170-212 | every write of a post is of a URL containing an allow-listed fragment to a name without '/' |
| Crawl.CrawlWritesSafely | src/boli_blog_downloader/app.py:170-217 | whatever the site serves, every image the run writes has a URL containing `googleusercontent.com` or `blogspot.com` and lands directly in `images/` |
| Crawl.ItemUncached | src/boli_blog_downloader/app.py:75-80 | an item's only cache-bypassing request is its own listing page, and only when refreshed |
| Crawl.ScheduleUncached | src/boli_blog_downloader/app.py:68-73 | when only the last entry is refreshed, at most its listing bypasses the cache, and it does once the schedule runs to the end |
| Crawl.ItemsRefreshLast | src/boli_blog_downloader/app.py:62-73 | only the last item's listing bypasses the cache, and it does when the items all complete |
| Crawl.CrawlRefreshesFirstArchiveLink | src/boli_blog_downloader/app.py:68-73 | over a whole run, the only uncached request is the listing named by the first archive link in document order; a completed run with a non-empty widget makes that request |

## Left out

- HTTP requests are left out: `__request_data`, the ten-second timeout, `raise_for_status` and the `DOWNLOAD_DELAY` sleep (lines 25-26). A page's text and an image's bytes are parameters of the model. The caught `requests.HTTPError` path is therefore not modelled. Neither is a `requests.Timeout`, which is not an `HTTPError` and would escape `run()`.
- `__download_image` and its SHA-256-named byte cache (lines 273 onward) are left out. Image bytes come from `Site.image`; hashing is not modelled.
- File system effects are not performed. Image writes appear in the crawl's trace as `WriteImage` actions. Overwriting an existing image is not distinguished from a first write. Cache writes appear only in the store `PageCache.DownloadPage` returns, not in the crawl's trace. `os.makedirs` for the cache and image directories is not modelled.
- HTML parsing with BeautifulSoup and `urlparse` are left out. The parsed elements and the URL path come from the `Site` value.
- Crawl.Crawl: the run records each page request with its `use_cache` flag but does not pass a cache store along. The page a request yields is whatever `Site` says, whether it came from the cache or the network. Cache behaviour is modelled separately by `PageCache.DownloadPage`.
- Logging and the package's `__init__.py` are left out; they have no effect on the outcome.
- `FILTER_LIST` (line 31) is left out. Its prefix filter at lines 162-168 is commented out.
- The `archive_list is None` test (lines 231-232) is not modelled. `find_all` always returns a list, so that test can never fire.
- Records.ToInt: accepts only ASCII digit strings of 1 to 4300 characters. Python's `int()` also accepts surrounding whitespace, a sign, `_` digit separators and non-ASCII decimal digits. An href or post ID relying on those is an error in the model. The 4300-digit limit is CPython's default; changing it with `sys.set_int_max_str_digits` or `PYTHONINTMAXSTRDIGITS` is not modelled.
- PageCache.DownloadPage: cache files are assumed to be written unchanged, as on POSIX, where text mode writes '\n' as is. On Windows every '\n' would be written as "\r\n", which the text-mode read turns back into '\n'. The model does not cover that translation. UTF-8 encoding errors on read or write are not modelled either.

=== FILE: Archive.dfy ===
/** The archive widget of the root page and the order in which the monthly
    listings are processed (src/boli_blog_downloader/app.py:62-73, 219-249). */
module Archive {
  import opened Results
  import opened Text
  import opened Decimal
  import opened Records

  const PAGE_ROOT: string := "https://boli-blog.pl/"

  /** The non-empty '/'-separated segments of an href, in order. */
  function Segments(href: string): (r: seq<string>)
    ensures |r| <= Count(href, '/') + 1
    ensures forall i :: 0 <= i < |r| ==> r[i] != "" && '/' !in r[i]
  {
    NonEmptyKeeps(Split(href, '/'));
    NonEmpty(Split(href, '/'))
  }

  /** The item an archive link stands for: the year is the second-to-last and
      the month the last non-empty segment of the href. Python evaluates
      `int(tokens[1])` before `int(tokens[0])`, so with fewer than two segments
      the error is an `IndexError`, and a bad year is reported before a bad
      month. */
  function ParseArchiveHref(href: string): (r: Result<DownloadItem, Error>)
    ensures var segs := Segments(href); var n := |segs|;
            && (n < 2 <==> r == Failure(IndexOutOfRange))
            && (n >= 2 ==> (r.Success? <==> IsNumeral(segs[n - 2]) && IsNumeral(segs[n - 1])))
            && (n >= 2 && !IsNumeral(segs[n - 2]) ==> r == Failure(InvalidLiteral(segs[n - 2])))
            && (n >= 2 && IsNumeral(segs[n - 2]) && !IsNumeral(segs[n - 1]) ==>
                  r == Failure(InvalidLiteral(segs[n - 1])))
            && (r.Success? ==>
                  r.value == DownloadItem(Value(segs[n - 2]), Value(segs[n - 1]), href))
  {
    var tokens := Reverse(NonEmpty(Split(href, '/')));
    if |tokens| < 2 then Failure(IndexOutOfRange)
    else
      var year :- ToInt(tokens[1]);
      var month :- ToInt(tokens[0]);
      Success(DownloadItem(year, month, href))
  }

  /** One anchor of the widget: a missing `href` is a `DownloaderException`,
      otherwise the item its href stands for. */
  function ParseAnchor(a: Link): (r: Result<DownloadItem, Error>)
    ensures a.href.None? <==> r == Failure(ArchiveItemMissingHref)
    ensures a.href.Some? ==> r == ParseArchiveHref(a.href.value)
    ensures r.Success? ==> r.value.href == a.href.value
  {
    match a.href
    case None => Failure(ArchiveItemMissingHref)
    case Some(h) => ParseArchiveHref(h)
  }

  /** `f` applied to the elements of `xs` from the last to the first,
      stopping at the first failure met in that order. */
  function TraverseReversed<X, Y, E>(f: X -> Result<Y, E>, xs: seq<X>): (r: Result<seq<Y>, E>)
    ensures r.Success? ==> |r.value| == |xs|
  {
    if |xs| == 0 then Success([])
    else
      var y :- f(xs[|xs| - 1]);
      var rest :- TraverseReversed(f, xs[..|xs| - 1]);
      Success([y] + rest)
  }

  /** The traversal succeeds exactly when `f` succeeds on every element; its
      results are in reverse order, and a failure is that of the last failing
      element. */
  lemma {:induction false} TraverseReversedSpec<X, Y, E>(f: X -> Result<Y, E>, xs: seq<X>)
    ensures TraverseReversed(f, xs).Success? <==>
              forall i :: 0 <= i < |xs| ==> f(xs[i]).Success?
    ensures TraverseReversed(f, xs).Success? ==>
              forall i :: 0 <= i < |xs| ==> TraverseReversed(f, xs).value[i] == f(xs[|xs| - 1 - i]).value
    ensures TraverseReversed(f, xs).Failure? ==>
              exists k :: 0 <= k < |xs| && f(xs[k]) == Failure(TraverseReversed(f, xs).error)
                       && forall j :: k < j < |xs| ==> f(xs[j]).Success?
  {
    if |xs| > 0 {
      var n := |xs|;
      var front := xs[..n - 1];
      TraverseReversedSpec(f, front);
      assert forall i :: 0 <= i < n - 1 ==> xs[i] == front[i];
      var r := TraverseReversed(f, xs);
      var head := f(xs[n - 1]);
      if head.Failure? {
        assert r == Failure(head.error);
      } else if TraverseReversed(f, front).Failure? {
        assert r == Failure(TraverseReversed(f, front).error);
        var k :| 0 <= k < n - 1 && f(front[k]) == Failure(TraverseReversed(f, front).error)
                 && forall j :: k < j < n - 1 ==> f(front[j]).Success?;
        assert f(xs[k]) == Failure(r.error);
      } else {
        assert r.value == [head.value] + TraverseReversed(f, front).value;
      }
    }
  }

  /** The anchors in reverse document order (`reversed(archive_list)`). */
  function ParseAnchors(anchors: seq<Link>): (r: Result<seq<DownloadItem>, Error>)
    ensures r.Success? ==> |r.value| == |anchors|
  {
    TraverseReversed(ParseAnchor, anchors)
  }

  /** The widget parses exactly when every anchor does; the items are the
      anchors' items in reverse document order, and a failure is that of the
      last anchor in document order that fails. */
  lemma ParseAnchorsReversed(anchors: seq<Link>)
    ensures ParseAnchors(anchors).Success? <==>
              forall i :: 0 <= i < |anchors| ==> ParseAnchor(anchors[i]).Success?
    ensures ParseAnchors(anchors).Success? ==>
              forall i :: 0 <= i < |anchors| ==>
                ParseAnchors(anchors).value[i] == ParseAnchor(anchors[|anchors| - 1 - i]).value
    ensures ParseAnchors(anchors).Failure? ==>
              exists k :: 0 <= k < |anchors| && ParseAnchor(anchors[k]) == Failure(ParseAnchors(anchors).error)
                       && forall j :: k < j < |anchors| ==> ParseAnchor(anchors[j]).Success?
  {
    TraverseReversedSpec(ParseAnchor, anchors);
  }

  /** The root page's archive widget: `None` when the `aside` is missing,
      otherwise its anchors in document order. `find_all` always returns a
      list, so the `None` test on it can never fire. */
  function ParseArchive(widget: Option<seq<Link>>): (r: Result<seq<DownloadItem>, Error>)
    ensures widget.None? ==> r == Failure(ArchiveNotFound)
    ensures widget.Some? ==> r == ParseAnchors(widget.value)
  {
    match widget
    case None => Failure(ArchiveNotFound)
    case Some(anchors) => ParseAnchors(anchors)
  }

  /** The href the site uses for a month: `https://boli-blog.pl/2023/10/`. */
  function MonthHref(year: nat, month: nat): string {
    PAGE_ROOT + ZeroPad(year, 4) + "/" + ZeroPad(month, 2) + "/"
  }

  /** An archive link in the site's own format gives back its year and
      month, as long as `int()` accepts numerals that long; a year too long
      for it is the error reported. */
  lemma MonthHrefRoundTrip(year: nat, month: nat)
    ensures |ZeroPad(year, 4)| <= MAX_STR_DIGITS && |ZeroPad(month, 2)| <= MAX_STR_DIGITS ==>
              ParseArchiveHref(MonthHref(year, month))
              == Success(DownloadItem(year, month, MonthHref(year, month)))
    ensures |ZeroPad(year, 4)| > MAX_STR_DIGITS ==>
              ParseArchiveHref(MonthHref(year, month)) == Failure(InvalidLiteral(ZeroPad(year, 4)))
  {
    MonthHrefSegments(year, month);
    ZeroPadValue(year, 4);
    ZeroPadValue(month, 2);
  }

  lemma MonthHrefSegments(year: nat, month: nat)
    ensures |Segments(MonthHref(year, month))| == 4
    ensures Segments(MonthHref(year, month))[2] == ZeroPad(year, 4)
    ensures Segments(MonthHref(year, month))[3] == ZeroPad(month, 2)
  {
    var y := ZeroPad(year, 4);
    var m := ZeroPad(month, 2);
    DigitsHaveNoSlash(y);
    DigitsHaveNoSlash(m);
    RootParts();
    HrefSegments("https:", "boli-blog.pl", y, m);
  }

  lemma DigitsHaveNoSlash(s: string)
    requires IsDigits(s)
    ensures '/' !in s
  {
    assert forall i :: 0 <= i < |s| ==> IsDigit(s[i]);
  }

  lemma RootParts()
    ensures PAGE_ROOT == "https:" + "//" + "boli-blog.pl" + "/"
  {
  }

  /** The segments of `<scheme>//<host>/<y>/<m>/`. */
  lemma HrefSegments(scheme: string, host: string, y: string, m: string)
    requires scheme != "" && host != "" && y != "" && m != ""
    requires '/' !in scheme && '/' !in host && '/' !in y && '/' !in m
    ensures Segments(scheme + "//" + host + "/" + y + "/" + m + "/") == [scheme, host, y, m]
  {
    var parts := [scheme, "", host, y, m, ""];
    var href := scheme + "//" + host + "/" + y + "/" + m + "/";
    HrefJoin(scheme, host, y, m);
    SplitJoin(parts, '/');
    HrefNonEmpty(scheme, host, y, m);
  }

  lemma HrefNonEmpty(scheme: string, host: string, y: string, m: string)
    requires scheme != "" && host != "" && y != "" && m != ""
    ensures NonEmpty([scheme, "", host, y, m, ""]) == [scheme, host, y, m]
  {
    var parts := [scheme, "", host, y, m, ""];
    assert NonEmpty(parts[5..]) == [];
    assert NonEmpty(parts[4..]) == [m];
    assert NonEmpty(parts[3..]) == [y, m];
    assert NonEmpty(parts[2..]) == [host, y, m];
    assert NonEmpty(parts[1..]) == [host, y, m];
  }

  lemma HrefJoin(scheme: string, host: string, y: string, m: string)
    ensures Join([scheme, "", host, y, m, ""], '/') == scheme + "//" + host + "/" + y + "/" + m + "/"
  {
    var parts := [scheme, "", host, y, m, ""];
    assert Join(parts[5..], '/') == "";
    assert Join(parts[4..], '/') == m + "/";
    assert Join(parts[3..], '/') == y + "/" + m + "/";
    assert Join(parts[2..], '/') == host + "/" + y + "/" + m + "/";
    assert Join(parts[1..], '/') == "/" + host + "/" + y + "/" + m + "/";
  }

  /** The order items are processed in and the refresh flag of each: every
      item but the last is processed with the page cache, the last one
      (popped off the list) with `refresh=True`. */
  function Schedule(items: seq<DownloadItem>): (r: seq<(DownloadItem, bool)>)
    ensures |r| == |items|
    ensures forall i :: 0 <= i < |r| ==> r[i].0 == items[i]
    ensures forall i :: 0 <= i < |r| ==> (r[i].1 <==> i == |items| - 1)
  {
    if |items| == 0 then []
    else
      var last := items[|items| - 1];
      var rest := items[..|items| - 1];
      seq(|rest|, i requires 0 <= i < |rest| => (rest[i], false)) + [(last, true)]
  }
}

=== FILE: Crawl.dfy ===
/** The crawl as a whole: the root page, the monthly listings, the posts on
    each listing and the images of each post, as the sequence of effects it
    has and the way it ends (src/boli_blog_downloader/app.py:41-217).

    The parsed pages are given by a `Site`: what the crawler finds on the
    root page, on a listing page, on a post page and behind an image URL.
    Every page request is recorded as a `LoadPage` action carrying its
    `use_cache` flag; what the page cache does with it is modelled in
    `PageCache`. */
module Crawl {
  import opened Results
  import opened Records
  import opened ImageType
  import opened PostId
  import opened Archive
  import opened Images
  import opened Text
  import opened Decimal
  import opened Runs

  /** The blog as the crawler sees it once pages are parsed. */
  datatype Site = Site(
    /** The anchors of the root page's archive widget; `None` when the
        widget is missing. */
    archive: Option<seq<Link>>,
    /** The `<article class="post">` elements of a listing page. */
    listing: string -> seq<Article>,
    /** The images of a post page's content block; `None` when the page has
        no content block. */
    content: string -> Option<seq<Image>>,
    /** The bytes downloaded from an image URL. */
    image: string -> Bytes,
    /** The path component of a URL. */
    urlPath: string -> string)

  /** The extension a downloaded image URL is written with. */
  function ExtensionOf(site: Site): string -> string {
    url => ChooseExtension(site.image(url), site.urlPath(url))
  }

  // ---------------------------------------------------------------------
  // One post (lines 112-217)
  // ---------------------------------------------------------------------

  /** What `__process_post` does once the post number `id` is known: the
      post page is requested through the cache, and the whole content block
      is collected before any image is downloaded. */
  function VisitPost(site: Site, item: DownloadItem, id: string, postHref: string): (r: Run)
    ensures |r.trace| >= 1 && r.trace[0] == LoadPage(postHref, true)
    ensures site.content(postHref).None? ==> r == Run([LoadPage(postHref, true)], Aborted(ContentNotFound))
    ensures site.content(postHref).Some? && CollectCandidates(site.content(postHref).value).Failure? ==>
              r == Run([LoadPage(postHref, true)], Aborted(CollectCandidates(site.content(postHref).value).error))
    ensures site.content(postHref).Some? && CollectCandidates(site.content(postHref).value).Success? ==>
              var cands := CollectCandidates(site.content(postHref).value).value;
              r == Run([LoadPage(postHref, true)] + PlanImages(item, id, cands, 0, ExtensionOf(site)), Completed)
  {
    var load := [LoadPage(postHref, true)];
    match site.content(postHref)
    case None => Run(load, Aborted(ContentNotFound))
    case Some(images) =>
      match CollectCandidates(images)
      case Failure(e) => Run(load, Aborted(e))
      case Success(cands) => Run(load + PlanImages(item, id, cands, 0, ExtensionOf(site)), Completed)
  }

  /** `__process_post`: the post ID is checked before anything is requested. */
  function ProcessPost(site: Site, item: DownloadItem, postId: string, postHref: string): (r: Run)
    ensures NumericId(postId).Failure? ==> r == Run([], Aborted(NumericId(postId).error))
    ensures NumericId(postId).Success? ==> r == VisitPost(site, item, NumericId(postId).value, postHref)
  {
    match NumericId(postId)
    case Failure(e) => Run([], Aborted(e))
    case Success(id) => VisitPost(site, item, id, postHref)
  }

  /** A visited post completes exactly when its content block exists and
      all its images are well formed. */
  lemma VisitCompletes(site: Site, item: DownloadItem, id: string, postHref: string)
    ensures VisitPost(site, item, id, postHref).outcome.Completed? <==>
              site.content(postHref).Some? && CollectCandidates(site.content(postHref).value).Success?
  {
  }

  /** A completed visit writes the kept candidates of the post in order
      under the sub-indices 0, 1, 2, ... */
  lemma VisitWrites(site: Site, item: DownloadItem, id: string, postHref: string)
    requires site.content(postHref).Some? && CollectCandidates(site.content(postHref).value).Success?
    ensures var kept := Kept(CollectCandidates(site.content(postHref).value).value);
            var w := Writes(VisitPost(site, item, id, postHref).trace);
            |w| == |kept| && forall j :: 0 <= j < |kept| ==> w[j] == (kept[j], j)
  {
    var cands := CollectCandidates(site.content(postHref).value).value;
    var ext := ExtensionOf(site);
    var plan := PlanImages(item, id, cands, 0, ext);
    WritesAfterLoad(postHref, true, plan);
    PlanWritesKept(item, id, cands, 0, ext);
  }

  /** A post completes exactly when its ID, content block and images are all
      well formed; it then writes its kept candidates in order under the
      sub-indices 0, 1, 2, ... */
  lemma PostWrites(site: Site, item: DownloadItem, postId: string, postHref: string)
    ensures var r := ProcessPost(site, item, postId, postHref);
            r.outcome.Completed? <==>
              NumericId(postId).Success? && site.content(postHref).Some? &&
              CollectCandidates(site.content(postHref).value).Success?
    ensures var r := ProcessPost(site, item, postId, postHref);
            r.outcome.Completed? ==>
              var kept := Kept(CollectCandidates(site.content(postHref).value).value);
              var w := Writes(r.trace);
              |w| == |kept| && forall j :: 0 <= j < |kept| ==> w[j] == (kept[j], j)
  {
    if NumericId(postId).Success? {
      var id := NumericId(postId).value;
      VisitCompletes(site, item, id, postHref);
      if site.content(postHref).Some? && CollectCandidates(site.content(postHref).value).Success? {
        VisitWrites(site, item, id, postHref);
      }
    }
  }

  /** A post ID whose number part `int()` rejects ends the run with an
      exception `run()` does not catch, before the post page is requested. */
  lemma BadPostNumberEscapes(site: Site, item: DownloadItem, postId: string, postHref: string)
    requires Count(postId, '-') == 1
    requires !IsNumeral(NumberPart(postId))
    ensures ProcessPost(site, item, postId, postHref) == Run([], Aborted(InvalidLiteral(NumberPart(postId))))
    ensures !IsDownloaderError(ProcessPost(site, item, postId, postHref).outcome.error)
  {
  }

  // ---------------------------------------------------------------------
  // One listing page (lines 75-110)
  // ---------------------------------------------------------------------

  /** The post ID and post href of an article, or the error for the first
      missing piece, looked up in the order ID, title, title anchor, href. */
  function ArticleTarget(a: Article): (r: Result<(string, string), Error>)
    ensures r.Success? <==>
              a.id.Some? && a.title.Some? && a.title.value.link.Some? && a.title.value.link.value.href.Some?
    ensures r.Success? ==> r.value == (a.id.value, a.title.value.link.value.href.value)
    ensures a.id.None? ==> r == Failure(ArticleMissingId)
    ensures a.id.Some? && a.title.None? ==> r == Failure(ArticleTitleNotFound)
    ensures a.id.Some? && a.title.Some? && a.title.value.link.None? ==> r == Failure(ArticleAddressNotFound)
    ensures a.id.Some? && a.title.Some? && a.title.value.link.Some? && a.title.value.link.value.href.None? ==>
              r == Failure(ArticleAddressMissingHref)
  {
    match a.id
    case None => Failure(ArticleMissingId)
    case Some(postId) =>
      match a.title
      case None => Failure(ArticleTitleNotFound)
      case Some(title) =>
        match title.link
        case None => Failure(ArticleAddressNotFound)
        case Some(link) =>
          match link.href
          case None => Failure(ArticleAddressMissingHref)
          case Some(href) => Success((postId, href))
  }

  /** One article: its post, or the error its lookup raised. */
  function ProcessArticle(site: Site, item: DownloadItem, a: Article): (r: Run)
    ensures ArticleTarget(a).Failure? ==> r == Run([], Aborted(ArticleTarget(a).error))
    ensures ArticleTarget(a).Success? ==>
              r == ProcessPost(site, item, ArticleTarget(a).value.0, ArticleTarget(a).value.1)
  {
    match ArticleTarget(a)
    case Failure(e) => Run([], Aborted(e))
    case Success((postId, postHref)) => ProcessPost(site, item, postId, postHref)
  }

  /** One article of `item`'s listing as a loop step. */
  function ArticleStep(site: Site, item: DownloadItem): Article -> Run {
    a => ProcessArticle(site, item, a)
  }

  /** The articles of a listing in document order; the first error ends the
      listing (and the run). */
  function ProcessArticles(site: Site, item: DownloadItem, articles: seq<Article>): (r: Run)
    ensures |articles| == 0 ==> r == Run([], Completed)
    ensures |articles| > 0 ==>
              r == Then(ProcessArticle(site, item, articles[0]), ProcessArticles(site, item, articles[1..]))
  {
    RunEach(ArticleStep(site, item), articles)
  }

  /** A listing completes exactly when every one of its articles does. */
  lemma {:induction false} ArticlesComplete(site: Site, item: DownloadItem, articles: seq<Article>)
    ensures ProcessArticles(site, item, articles).outcome.Completed? <==>
              forall i :: 0 <= i < |articles| ==> ProcessArticle(site, item, articles[i]).outcome.Completed?
  {
    RunEachCompletes(ArticleStep(site, item), articles);
  }

  /** The error of an aborted listing is that of its first failing article:
      every article before it completed. */
  lemma {:induction false} ArticlesFirstError(site: Site, item: DownloadItem, articles: seq<Article>)
    ensures ProcessArticles(site, item, articles).outcome.Aborted? ==>
              exists k :: 0 <= k < |articles| &&
                (forall i :: 0 <= i < k ==> ProcessArticle(site, item, articles[i]).outcome.Completed?) &&
                ProcessArticles(site, item, articles).outcome == ProcessArticle(site, item, articles[k]).outcome
  {
    RunEachFirstError(ArticleStep(site, item), articles);
  }

  /** `__process_item`: the listing page is requested first, bypassing the
      page cache exactly when `refresh` is set, and then every article of
      the listing is processed. */
  function ProcessItem(site: Site, item: DownloadItem, refresh: bool): (r: Run)
    ensures |r.trace| >= 1 && r.trace[0] == LoadPage(item.href, !refresh)
    ensures var arts := ProcessArticles(site, item, site.listing(item.href));
            r.trace == [LoadPage(item.href, !refresh)] + arts.trace && r.outcome == arts.outcome
  {
    Then(Run([LoadPage(item.href, !refresh)], Completed), ProcessArticles(site, item, site.listing(item.href)))
  }

  // ---------------------------------------------------------------------
  // The archive and the run (lines 41-73, 219-249)
  // ---------------------------------------------------------------------

  /** One schedule entry, an item and its refresh flag, as a loop step. */
  function ItemStep(site: Site): ((DownloadItem, bool)) -> Run {
    (entry: (DownloadItem, bool)) => ProcessItem(site, entry.0, entry.1)
  }

  /** The items of a schedule in order, each with its refresh flag. */
  function ProcessSchedule(site: Site, sched: seq<(DownloadItem, bool)>): (r: Run)
    ensures |sched| == 0 ==> r == Run([], Completed)
    ensures |sched| > 0 ==>
              r == Then(ProcessItem(site, sched[0].0, sched[0].1), ProcessSchedule(site, sched[1..]))
  {
    RunEach(ItemStep(site), sched)
  }

  /** `__process_items`: nothing for an empty list, otherwise every item in
      order, the last one refreshed. */
  function ProcessItems(site: Site, items: seq<DownloadItem>): (r: Run)
    ensures |items| == 0 ==> r == Run([], Completed)
    ensures |items| > 0 ==> r == ProcessSchedule(site, Schedule(items))
  {
    if |items| == 0 then Run([], Completed)
    else ProcessSchedule(site, Schedule(items))
  }

  /** The body of `run()`'s `try`: the root page (through the cache), its
      archive widget, then the items. Every archive link is parsed before any
      listing page is requested. */
  function Crawl(site: Site): (r: Run)
    ensures |r.trace| >= 1 && r.trace[0] == LoadPage(PAGE_ROOT, true)
    ensures ParseArchive(site.archive).Failure? ==>
              r == Run([LoadPage(PAGE_ROOT, true)], Aborted(ParseArchive(site.archive).error))
    ensures ParseArchive(site.archive).Success? ==>
              r == Then(Run([LoadPage(PAGE_ROOT, true)], Completed),
                        ProcessItems(site, ParseArchive(site.archive).value))
  {
    var root := Run([LoadPage(PAGE_ROOT, true)], Completed);
    match ParseArchive(site.archive)
    case Failure(e) => Then(root, Run([], Aborted(e)))
    case Success(items) => Then(root, ProcessItems(site, items))
  }

  /** How `run()` ends: it returns 0 or 1, or lets an exception escape. */
  datatype Exit = Returned(code: int) | Raised(error: Error)

  /** `run()` returns 1 only for a `DownloaderException`; the `ValueError` of
      `int()` and the `IndexError` of a short archive href escape it. */
  function ExitOf(o: Outcome): (x: Exit)
    ensures x == Returned(0) <==> o.Completed?
    ensures x == Returned(1) <==> o.Aborted? && IsDownloaderError(o.error)
    ensures x.Raised? <==> o.Aborted? && !IsDownloaderError(o.error)
    ensures x.Raised? ==> x.error == o.error
  {
    match o
    case Completed => Returned(0)
    case Aborted(e) => if IsDownloaderError(e) then Returned(1) else Raised(e)
  }

  /** `DownloaderApp().run()`: 0 when the crawl completes, 1 when it stops
      on a `DownloaderException` (a root page without the archive widget is
      one), and otherwise the exception escapes. */
  function RunApp(site: Site): (x: Exit)
    ensures x == Returned(0) <==> Crawl(site).outcome.Completed?
    ensures x == Returned(1) <==>
              Crawl(site).outcome.Aborted? && IsDownloaderError(Crawl(site).outcome.error)
    ensures site.archive.None? ==> x == Returned(1)
  {
    ExitOf(Crawl(site).outcome)
  }

  // ---------------------------------------------------------------------
  // Every write is of an allowed URL to a plain file name
  // ---------------------------------------------------------------------

  /** A write stays inside the images directory and is of a URL the
      allow-list's substring test accepts. */
  predicate SafeAction(a: Action) {
    a.WriteImage? ==> SourceAllowed(a.url) && '/' !in a.fileName
  }

  predicate SafeTrace(t: seq<Action>) {
    forall i :: 0 <= i < |t| ==> SafeAction(t[i])
  }

  lemma ThenSafe(a: Run, b: Run)
    requires SafeTrace(a.trace) && SafeTrace(b.trace)
    ensures SafeTrace(Then(a, b).trace)
  {
    if a.outcome.Completed? {
      var t := a.trace + b.trace;
      assert forall i :: |a.trace| <= i < |t| ==> t[i] == b.trace[i - |a.trace|];
    }
  }

  lemma VisitSafe(site: Site, item: DownloadItem, id: string, postHref: string)
    requires IsDigits(id)
    ensures SafeTrace(VisitPost(site, item, id, postHref).trace)
  {
    var r := VisitPost(site, item, id, postHref);
    if r.outcome.Completed? {
      var cands := CollectCandidates(site.content(postHref).value).value;
      var ext := ExtensionOf(site);
      var plan := PlanImages(item, id, cands, 0, ext);
      PlanImagesSpec(item, id, cands, 0, ext);
      assert r.trace == [LoadPage(postHref, true)] + plan;
      forall i | 0 <= i < |plan| ensures SafeAction(plan[i]) {
        if plan[i].WriteImage? {
          assert '/' !in ext(cands[i]);
          OutputNameHasNoSlash(item, id, plan[i].subid, ext(cands[i]));
        }
      }
      SafeCons(LoadPage(postHref, true), plan);
    }
  }

  lemma SafeCons(a: Action, t: seq<Action>)
    requires SafeAction(a) && SafeTrace(t)
    ensures SafeTrace([a] + t)
  {
    assert forall i :: 1 <= i < |[a] + t| ==> ([a] + t)[i] == t[i - 1];
  }

  lemma PostSafe(site: Site, item: DownloadItem, postId: string, postHref: string)
    ensures SafeTrace(ProcessPost(site, item, postId, postHref).trace)
  {
    if NumericId(postId).Success? {
      VisitSafe(site, item, NumericId(postId).value, postHref);
    }
  }

  lemma {:induction false} ArticlesSafe(site: Site, item: DownloadItem, articles: seq<Article>)
    ensures SafeTrace(ProcessArticles(site, item, articles).trace)
  {
    if |articles| > 0 {
      if ArticleTarget(articles[0]).Success? {
        var (postId, postHref) := ArticleTarget(articles[0]).value;
        PostSafe(site, item, postId, postHref);
      }
      ArticlesSafe(site, item, articles[1..]);
      ThenSafe(ProcessArticle(site, item, articles[0]), ProcessArticles(site, item, articles[1..]));
    }
  }

  lemma {:induction false} ScheduleSafe(site: Site, sched: seq<(DownloadItem, bool)>)
    ensures SafeTrace(ProcessSchedule(site, sched).trace)
  {
    if |sched| > 0 {
      var item := sched[0].0;
      ArticlesSafe(site, item, site.listing(item.href));
      ThenSafe(Run([LoadPage(item.href, !sched[0].1)], Completed), ProcessArticles(site, item, site.listing(item.href)));
      ScheduleSafe(site, sched[1..]);
      ThenSafe(ProcessItem(site, item, sched[0].1), ProcessSchedule(site, sched[1..]));
    }
  }

  /** Whatever the site serves, every image the crawl writes has a URL that
      contains `googleusercontent.com` or `blogspot.com` somewhere (a
      substring test, not a host check) and is written to a file directly
      inside the images directory. */
  lemma CrawlWritesSafely(site: Site)
    ensures SafeTrace(Crawl(site).trace)
  {
    var root := Run([LoadPage(PAGE_ROOT, true)], Completed);
    match ParseArchive(site.archive)
    case Failure(e) =>
      ThenSafe(root, Run([], Aborted(e)));
    case Success(items) =>
      if |items| > 0 {
        ScheduleSafe(site, Schedule(items));
      }
      ThenSafe(root, ProcessItems(site, items));
  }

  // ---------------------------------------------------------------------
  // Only the listing of the first archive link in document order bypasses
  // the page cache
  // ---------------------------------------------------------------------

  lemma ThenUncached(a: Run, b: Run)
    ensures Uncached(Then(a, b).trace) ==
              Uncached(a.trace) + (if a.outcome.Aborted? then [] else Uncached(b.trace))
  {
    if a.outcome.Completed? {
      UncachedAppend(a.trace, b.trace);
    }
  }

  lemma VisitUncached(site: Site, item: DownloadItem, id: string, postHref: string)
    ensures Uncached(VisitPost(site, item, id, postHref).trace) == []
  {
    var r := VisitPost(site, item, id, postHref);
    var load := [LoadPage(postHref, true)];
    assert Uncached(load) == [];
    if r.outcome.Completed? {
      var cands := CollectCandidates(site.content(postHref).value).value;
      var plan := PlanImages(item, id, cands, 0, ExtensionOf(site));
      PlanImagesSpec(item, id, cands, 0, ExtensionOf(site));
      UncachedNone(plan);
      assert r.trace == load + plan;
      UncachedAppend(load, plan);
    } else {
      assert r.trace == load;
    }
  }

  lemma PostUncached(site: Site, item: DownloadItem, postId: string, postHref: string)
    ensures Uncached(ProcessPost(site, item, postId, postHref).trace) == []
  {
    if NumericId(postId).Success? {
      VisitUncached(site, item, NumericId(postId).value, postHref);
    }
  }

  lemma {:induction false} ArticlesUncached(site: Site, item: DownloadItem, articles: seq<Article>)
    ensures Uncached(ProcessArticles(site, item, articles).trace) == []
  {
    if |articles| > 0 {
      if ArticleTarget(articles[0]).Success? {
        var (postId, postHref) := ArticleTarget(articles[0]).value;
        PostUncached(site, item, postId, postHref);
      }
      ArticlesUncached(site, item, articles[1..]);
      ThenUncached(ProcessArticle(site, item, articles[0]), ProcessArticles(site, item, articles[1..]));
    }
  }

  /** A listing page is the only page of its item that may skip the cache,
      and it does so exactly when the item is refreshed. */
  lemma ItemUncached(site: Site, item: DownloadItem, refresh: bool)
    ensures Uncached(ProcessItem(site, item, refresh).trace) == (if refresh then [item.href] else [])
  {
    var load := Run([LoadPage(item.href, !refresh)], Completed);
    ArticlesUncached(site, item, site.listing(item.href));
    ThenUncached(load, ProcessArticles(site, item, site.listing(item.href)));
    assert Uncached(load.trace) == (if refresh then [item.href] else []);
  }

  /** In a schedule whose only refreshed entry can be the last, at most that
      entry's listing bypasses the cache, and it does when the schedule runs
      to the end. */
  lemma {:induction false} ScheduleUncached(site: Site, sched: seq<(DownloadItem, bool)>)
    requires forall i :: 0 <= i < |sched| - 1 ==> !sched[i].1
    ensures var r := ProcessSchedule(site, sched);
            var u := Uncached(r.trace);
            && (u == [] || (|sched| > 0 && sched[|sched| - 1].1 && u == [sched[|sched| - 1].0.href]))
            && (|sched| > 0 && sched[|sched| - 1].1 && r.outcome.Completed? ==> u == [sched[|sched| - 1].0.href])
  {
    if |sched| > 0 {
      var first := ProcessItem(site, sched[0].0, sched[0].1);
      var rest := ProcessSchedule(site, sched[1..]);
      ItemUncached(site, sched[0].0, sched[0].1);
      ThenUncached(first, rest);
      if |sched| == 1 {
        assert Uncached(rest.trace) == [];
      } else {
        ScheduleUncached(site, sched[1..]);
        assert sched[1..][|sched| - 2] == sched[|sched| - 1];
      }
    }
  }

  /** `__process_items` requests the listing of the last item, and only that
      one, without the cache; an empty list requests nothing. */
  lemma ItemsRefreshLast(site: Site, items: seq<DownloadItem>)
    ensures var r := ProcessItems(site, items);
            var u := Uncached(r.trace);
            && (u == [] || (|items| > 0 && u == [items[|items| - 1].href]))
            && (|items| > 0 && r.outcome.Completed? ==> u == [items[|items| - 1].href])
  {
    if |items| > 0 {
      var sched := Schedule(items);
      ScheduleUncached(site, sched);
    }
  }

  /** Over a whole run, the only page requested without the cache is the
      listing named by the first link of the archive widget in document
      order, and a run that completes with a non-empty widget requests it. */
  lemma CrawlRefreshesFirstArchiveLink(site: Site)
    ensures var u := Uncached(Crawl(site).trace);
            u == [] ||
            (site.archive.Some? && |site.archive.value| > 0 && site.archive.value[0].href.Some? &&
             u == [site.archive.value[0].href.value])
    ensures var u := Uncached(Crawl(site).trace);
            Crawl(site).outcome.Completed? && site.archive.Some? && |site.archive.value| > 0 ==>
              site.archive.value[0].href.Some? && u == [site.archive.value[0].href.value]
  {
    var root := Run([LoadPage(PAGE_ROOT, true)], Completed);
    assert Uncached(root.trace) == [];
    match ParseArchive(site.archive)
    case Failure(e) =>
      ThenUncached(root, Run([], Aborted(e)));
    case Success(items) =>
      ThenUncached(root, ProcessItems(site, items));
      ItemsRefreshLast(site, items);
      if |items| > 0 {
        var anchors := site.archive.value;
        ParseAnchorsReversed(anchors);
        assert items[|items| - 1] == ParseAnchor(anchors[0]).value;
      }
  }
}

=== FILE: Decimal.dfy ===
/** Decimal numerals: Python's `int(s)` restricted to non-empty ASCII digit
    strings, and the `f"{n:0Wd}"` zero-padded rendering of a non-negative
    integer. */
module Decimal {
  import opened Results
  import Text

  predicate IsDigit(c: char) {
    '0' <= c <= '9'
  }

  predicate IsDigits(s: string) {
    forall i :: 0 <= i < |s| ==> IsDigit(s[i])
  }

  function DigitValue(c: char): (d: nat)
    requires IsDigit(c)
    ensures d < 10
  {
    (c as int) - ('0' as int)
  }

  function DigitChar(d: nat): (c: char)
    requires d < 10
    ensures IsDigit(c) && DigitValue(c) == d
  {
    (('0' as int) + d) as char
  }

  /** The number a digit string denotes, most significant digit first. */
  function Value(s: string): nat
    requires IsDigits(s)
  {
    if |s| == 0 then 0
    else Value(s[..|s| - 1]) * 10 + DigitValue(s[|s| - 1])
  }

  /** A run of `k` zero digits. */
  function Zeros(k: nat): (z: string)
    ensures |z| == k && IsDigits(z)
    ensures forall i :: 0 <= i < k ==> z[i] == '0'
  {
    seq(k, _ => '0')
  }

  /** Python's `str(n)` for a non-negative integer: the shortest numeral. */
  function Show(n: nat): (r: string)
    ensures |r| >= 1 && IsDigits(r)
    ensures r[0] == '0' <==> n == 0
    ensures n < 10 <==> |r| == 1
  {
    if n < 10 then [DigitChar(n)]
    else Show(n / 10) + [DigitChar(n % 10)]
  }

  /** `str(n)` denotes `n`. */
  lemma {:induction false} ShowValue(n: nat)
    ensures Value(Show(n)) == n
  {
    if n >= 10 {
      ShowValue(n / 10);
      var r := Show(n);
      assert r[..|r| - 1] == Show(n / 10);
    }
  }

  /** Python's `f"{n:0{width}d}"` for a non-negative `n`: the shortest
      numeral, padded on the left with zeros to at least `width` characters
      and never truncated. */
  function ZeroPad(n: nat, width: nat): (r: string)
    ensures IsDigits(r)
    ensures |r| == if |Show(n)| >= width then |Show(n)| else width
  {
    var d := Show(n);
    if |d| >= width then d else Zeros(width - |d|) + d
  }

  /** The padded numeral still denotes `n`. */
  lemma ZeroPadValue(n: nat, width: nat)
    ensures Value(ZeroPad(n, width)) == n
  {
    var d := Show(n);
    ShowValue(n);
    if |d| < width {
      assert ZeroPad(n, width) == Zeros(width - |d|) + d;
      LeadingZeros(width - |d|, d);
    } else {
      assert ZeroPad(n, width) == d;
    }
  }

  /** CPython's default limit on the length of a decimal string `int()`
      converts; leading zeros count towards it. */
  const MAX_STR_DIGITS: nat := 4300

  /** A string `int()` accepts, among the ASCII ones: one to MAX_STR_DIGITS
      decimal digits. */
  predicate IsNumeral(s: string) {
    1 <= |s| <= MAX_STR_DIGITS && IsDigits(s)
  }

  /** Python's `int(s)`, defined here only for the ASCII numerals it accepts;
      every other string raises `ValueError`, modelled as `None`. */
  function ParseInt(s: string): (r: Option<nat>)
    ensures r.Some? <==> |s| >= 1 && |s| <= MAX_STR_DIGITS && IsDigits(s)
    ensures r.Some? ==> r.value == Value(s)
  {
    if IsNumeral(s) then Some(Value(s)) else None
  }

  /** Leading zeros do not change the value of a numeral. */
  lemma {:induction false} LeadingZeros(k: nat, s: string)
    requires IsDigits(s)
    ensures IsDigits(Zeros(k) + s) && Value(Zeros(k) + s) == Value(s)
  {
    var t := Zeros(k) + s;
    if |s| == 0 {
      assert t == Zeros(k);
      AllZeros(k);
    } else {
      LeadingZeros(k, s[..|s| - 1]);
      assert t[..|t| - 1] == Zeros(k) + s[..|s| - 1];
      assert t[|t| - 1] == s[|s| - 1];
    }
  }

  /** A numeral made only of zeros denotes 0. */
  lemma {:induction false} AllZeros(k: nat)
    ensures Value(Zeros(k)) == 0
  {
    if k > 0 {
      AllZeros(k - 1);
      assert Zeros(k)[..k - 1] == Zeros(k - 1);
    }
  }

  lemma ZerosAppend(a: nat, b: nat)
    ensures Zeros(a) + Zeros(b) == Zeros(a + b)
  {
  }

  /** Appending a digit to a positive number's numeral appends its
      character. */
  lemma ShowStep(v: nat, d: nat)
    requires v > 0 && d < 10
    ensures Show(v * 10 + d) == Show(v) + [DigitChar(d)]
  {
    var n := v * 10 + d;
    assert n / 10 == v && n % 10 == d;
  }

  /** Every non-empty numeral is its value's shortest numeral preceded by zeros. */
  lemma {:induction false} Canonical(t: string)
    requires |t| >= 1 && IsDigits(t)
    ensures |Show(Value(t))| <= |t|
    ensures t == Zeros(|t| - |Show(Value(t))|) + Show(Value(t))
  {
    var front, c := t[..|t| - 1], t[|t| - 1];
    assert t == front + [c];
    if |front| == 0 {
      var d := DigitValue(c);
      assert DigitChar(d) == c;
      assert Value(t) == d;
      assert t == [c] && Zeros(0) == [];
    } else {
      Canonical(front);
      CanonicalStep(front, c);
    }
  }

  /** The inductive step of `Canonical`: appending a digit keeps a numeral
      canonical. */
  lemma CanonicalStep(front: string, c: char)
    requires |front| >= 1 && IsDigits(front) && IsDigit(c)
    requires |Show(Value(front))| <= |front|
    requires front == Zeros(|front| - |Show(Value(front))|) + Show(Value(front))
    ensures IsDigits(front + [c])
    ensures |Show(Value(front + [c]))| <= |front + [c]|
    ensures front + [c] == Zeros(|front + [c]| - |Show(Value(front + [c]))|) + Show(Value(front + [c]))
  {
    ValueAppend(front, c);
    var v := Value(front);
    if v == 0 {
      ZerosAppend(|front| - 1, 1);
      Regroup(front, |front|, "", c, Show(Value(front + [c])));
    } else {
      ShowStep(v, DigitValue(c));
      Regroup(front, |front| - |Show(v)|, Show(v), c, Show(Value(front + [c])));
    }
  }

  /** Appending a digit multiplies the value by ten and adds the digit. */
  lemma ValueAppend(s: string, c: char)
    requires IsDigits(s) && IsDigit(c)
    ensures IsDigits(s + [c]) && Value(s + [c]) == Value(s) * 10 + DigitValue(c)
  {
    assert (s + [c])[..|s|] == s;
  }

  /** Zeros in front of a numeral stay in front when a digit is appended. */
  lemma Regroup(front: string, z: nat, numeral: string, c: char, longer: string)
    requires front == Zeros(z) + numeral && longer == numeral + [c]
    ensures |longer| <= |front + [c]|
    ensures front + [c] == Zeros(|front + [c]| - |longer|) + longer
  {
    Text.ConcatAssoc(Zeros(z), numeral, [c]);
  }

  /** Padding the value of a numeral no longer than `width` is the same as
      padding the numeral itself: `int("0042")` padded to 10 is "0000000042". */
  lemma {:induction false} PadNumeral(t: string, width: nat)
    requires |t| >= 1 && IsDigits(t) && |t| <= width
    ensures ZeroPad(Value(t), width) == Zeros(width - |t|) + t
  {
    var v := Value(t);
    var s := Show(v);
    Canonical(t);
    assert t == Zeros(|t| - |s|) + s;
    if |s| >= width {
      assert ZeroPad(v, width) == s;
      assert Zeros(width - |t|) + t == t;
    } else {
      assert ZeroPad(v, width) == Zeros(width - |s|) + s;
      ZerosAppend(width - |t|, |t| - |s|);
      calc {
        Zeros(width - |t|) + t;
        Zeros(width - |t|) + (Zeros(|t| - |s|) + s);
        (Zeros(width - |t|) + Zeros(|t| - |s|)) + s;
        Zeros(width - |s|) + s;
      }
    }
  }

  /** `int()` reads back a padded numeral as the number it renders, unless
      the numeral is longer than `int()` accepts. */
  lemma ParsePadded(n: nat, width: nat)
    ensures ParseInt(ZeroPad(n, width)) ==
              if |ZeroPad(n, width)| <= MAX_STR_DIGITS then Some(n) else None
  {
    ZeroPadValue(n, width);
  }
}

=== FILE: ImageType.dfy ===
/** Choosing the file extension of a downloaded image: the first bytes are
    compared with three fixed signatures, and when none matches the
    extension of the URL path is used, or `.dat` when that is empty
    (src/boli_blog_downloader/app.py:181-200). */
module ImageType {
  import opened Results
  import opened Text
  import PathExt

  type Bytes = seq<bv8>

  /** Only this many leading bytes are looked at (`image_data[0:32]`). */
  const SNIFF_LENGTH: nat := 32

  /** `b"\x89PNG"` */
  const PNG_MAGIC: Bytes := [0x89, 0x50, 0x4E, 0x47]
  /** `b"\xff\xd8\xff\xe0\x00\x10JFIF"` */
  const JFIF_MAGIC: Bytes := [0xFF, 0xD8, 0xFF, 0xE0, 0x00, 0x10, 0x4A, 0x46, 0x49, 0x46]
  /** `b"GIF89a"` */
  const GIF89A_MAGIC: Bytes := [0x47, 0x49, 0x46, 0x38, 0x39, 0x61]
  /** `b"GIF87a"`, the older GIF header, which is not among the signatures. */
  const GIF87A_MAGIC: Bytes := [0x47, 0x49, 0x46, 0x38, 0x37, 0x61]

  const PLACEHOLDER_EXT: string := ".dat"

  /** Python's slice `data[0:n]`: at most `n` leading bytes, never an error. */
  function Head(data: Bytes, n: nat): (r: Bytes)
    ensures |r| <= n && |r| <= |data|
    ensures |r| == n || |r| == |data|
    ensures r == data[..|r|]
  {
    if |data| <= n then data else data[..n]
  }

  /** `data` begins with the bytes of `sig`. */
  predicate StartsWith(data: Bytes, sig: Bytes) {
    |sig| <= |data| && data[..|sig|] == sig
  }

  /** Comparing a slice of the 32-byte window with a signature of at most 32
      bytes is the same as asking whether the data starts with it. */
  lemma WindowMatch(data: Bytes, sig: Bytes)
    requires |sig| <= SNIFF_LENGTH
    ensures Head(Head(data, SNIFF_LENGTH), |sig|) == sig <==> StartsWith(data, sig)
  {
    var w := Head(data, SNIFF_LENGTH);
    if StartsWith(data, sig) {
      assert w[..|sig|] == data[..|sig|];
    }
    if Head(w, |sig|) == sig {
      assert data[..|sig|] == w[..|sig|];
    }
  }

  /** The extension the signature test yields, or `None` when the bytes match
      no signature (the source then still holds its `.dat` default). */
  function Sniff(data: Bytes): (r: Option<string>)
    ensures r == Some(".png") <==> StartsWith(data, PNG_MAGIC)
    ensures r == Some(".jpg") <==> !StartsWith(data, PNG_MAGIC) && StartsWith(data, JFIF_MAGIC)
    ensures r == Some(".gif") <==>
              !StartsWith(data, PNG_MAGIC) && !StartsWith(data, JFIF_MAGIC) && StartsWith(data, GIF89A_MAGIC)
    ensures r.None? <==>
              !StartsWith(data, PNG_MAGIC) && !StartsWith(data, JFIF_MAGIC) && !StartsWith(data, GIF89A_MAGIC)
  {
    var subset := Head(data, SNIFF_LENGTH);
    WindowMatch(data, PNG_MAGIC);
    WindowMatch(data, JFIF_MAGIC);
    WindowMatch(data, GIF89A_MAGIC);
    if Head(subset, 4) == PNG_MAGIC then Some(".png")
    else if Head(subset, 10) == JFIF_MAGIC then Some(".jpg")
    else if Head(subset, 6) == GIF89A_MAGIC then Some(".gif")
    else None
  }

  /** The extension an image is written with. */
  function ChooseExtension(data: Bytes, urlPath: string): (ext: string)
    ensures |ext| >= 1 && ext[0] == '.'
    ensures '/' !in ext
    ensures Sniff(data).Some? ==> ext == Sniff(data).value
    ensures Sniff(data).None? && PathExt.HasExtension(urlPath) ==>
              ext == urlPath[LastIndexOf(urlPath, '.')..]
    ensures Sniff(data).None? && !PathExt.HasExtension(urlPath) ==> ext == PLACEHOLDER_EXT
  {
    PathExt.ExtensionCharacterised(urlPath);
    match Sniff(data)
    case Some(e) => e
    case None =>
      var e := PathExt.SplitExt(urlPath).1;
      if |e| == 0 then PLACEHOLDER_EXT else e
  }

  /** Data starting with the PNG signature is written as `.png`, whatever
      the URL says. */
  lemma PngWinsOverUrl(data: Bytes, urlPath: string)
    requires StartsWith(data, PNG_MAGIC)
    ensures ChooseExtension(data, urlPath) == ".png"
  {
  }

  /** No data starts with two of the signatures, so the order of the tests
      never decides between two matches. */
  lemma SignaturesExclusive(data: Bytes)
    ensures !(StartsWith(data, PNG_MAGIC) && StartsWith(data, JFIF_MAGIC))
    ensures !(StartsWith(data, PNG_MAGIC) && StartsWith(data, GIF89A_MAGIC))
    ensures !(StartsWith(data, JFIF_MAGIC) && StartsWith(data, GIF89A_MAGIC))
  {
    if StartsWith(data, PNG_MAGIC) { assert data[0] == 0x89; }
    if StartsWith(data, JFIF_MAGIC) { assert data[0] == 0xFF; }
    if StartsWith(data, GIF89A_MAGIC) { assert data[0] == 0x47; }
  }

  /** Bytes after the tenth never influence the signature test. */
  lemma SniffIgnoresTail(data: Bytes, tail: Bytes)
    requires |data| >= |JFIF_MAGIC|
    ensures Sniff(data + tail) == Sniff(data)
  {
    var d := data + tail;
    assert d[..4] == data[..4];
    assert d[..6] == data[..6];
    assert d[..10] == data[..10];
  }

  /** A `GIF87a` header is not recognised: the extension comes from the URL. */
  lemma Gif87aNotRecognised(data: Bytes)
    requires StartsWith(data, GIF87A_MAGIC)
    ensures Sniff(data).None?
  {
    assert data[0] == 0x47;
    assert data[4] == 0x37;
  }
}

=== FILE: Images.dfy ===
/** The image part of a post: collecting candidate URLs from the content
    block, keeping those whose URL contains one of the allow-listed host
    fragments, and naming the files they are
    written to (src/boli_blog_downloader/app.py:131-217). */
module Images {
  import opened Results
  import opened Text
  import opened Decimal
  import opened Records

  /** Host-name fragments an image URL must contain to be downloaded. */
  const CONTENT_SOURCES: seq<string> := ["googleusercontent.com", "blogspot.com"]

  // ---------------------------------------------------------------------
  // Candidate collection (lines 131-156)
  // ---------------------------------------------------------------------

  /** An image the collection loop accepts: it has a `src`, and when its
      parent is an `<a>` that anchor has an `href`. */
  predicate WellFormed(img: Image) {
    img.src.Some? && (img.parent.AnchorParent? ==> img.parent.link.href.Some?)
  }

  /** The error the collection loop raises on a malformed image: the `src`
      is looked up before the parent's `href`. */
  function ImageError(img: Image): (e: Error)
    requires !WellFormed(img)
    ensures img.src.None? ==> e == ImageMissingSrc
    ensures img.src.Some? ==> e == ImageParentMissingHref
  {
    if img.src.None? then ImageMissingSrc else ImageParentMissingHref
  }

  /** The candidates one image adds: its `src`, then its parent anchor's
      `href` when the parent is an `<a>`. */
  function Contribution(img: Image): (r: Result<seq<string>, Error>)
    ensures r.Success? <==> WellFormed(img)
    ensures r.Failure? ==> r.error == ImageError(img)
  {
    match img.src
    case None => Failure(ImageMissingSrc)
    case Some(src) =>
      match img.parent
      case OtherParent => Success([src])
      case AnchorParent(link) =>
        match link.href
        case None => Failure(ImageParentMissingHref)
        case Some(href) => Success([src, href])
  }

  /** `image_sources` after the loop over the content block's images. */
  function CollectCandidates(images: seq<Image>): (r: Result<seq<string>, Error>)
    ensures r.Success? ==> |r.value| == |images| + AnchorCount(images)
  {
    if |images| == 0 then Success([])
    else
      var first :- Contribution(images[0]);
      var rest :- CollectCandidates(images[1..]);
      Success(first + rest)
  }

  /** Number of images among `images` whose parent is an `<a>`. */
  function AnchorCount(images: seq<Image>): (n: nat)
    ensures n <= |images|
  {
    if |images| == 0 then 0
    else (if images[0].parent.AnchorParent? then 1 else 0) + AnchorCount(images[1..])
  }

  /** Where the `src` of image `i` lands in the candidate list. */
  function SrcPosition(images: seq<Image>, i: nat): nat
    requires i <= |images|
  {
    i + AnchorCount(images[..i])
  }

  /** Collection succeeds exactly when every image is well formed. */
  lemma {:induction false} CandidatesSucceed(images: seq<Image>)
    ensures CollectCandidates(images).Success? <==>
              forall i :: 0 <= i < |images| ==> WellFormed(images[i])
  {
    if |images| > 0 {
      var tail := images[1..];
      CandidatesSucceed(tail);
      assert forall i :: 1 <= i < |images| ==> images[i] == tail[i - 1];
    }
  }

  /** A failed collection carries the error of the first malformed image. */
  lemma {:induction false} CandidatesFirstError(images: seq<Image>)
    ensures CollectCandidates(images).Failure? ==>
              exists k :: 0 <= k < |images| && !WellFormed(images[k])
                       && CollectCandidates(images).error == ImageError(images[k])
                       && forall j :: 0 <= j < k ==> WellFormed(images[j])
  {
    if |images| > 0 {
      var tail := images[1..];
      if Contribution(images[0]).Failure? {
        assert CollectCandidates(images).error == ImageError(images[0]);
      } else if CollectCandidates(tail).Failure? {
        CandidatesFirstError(tail);
        var k :| 0 <= k < |tail| && !WellFormed(tail[k])
                 && CollectCandidates(tail).error == ImageError(tail[k])
                 && forall j :: 0 <= j < k ==> WellFormed(tail[j]);
        assert forall i :: 1 <= i < |images| ==> images[i] == tail[i - 1];
        assert !WellFormed(images[k + 1]);
      }
    }
  }

  /** `r` lists each of `images`' `src` in document order, immediately
      followed by its parent anchor's `href` when there is one, and nothing
      else. */
  predicate Layout(images: seq<Image>, r: seq<string>) {
    && |r| == |images| + AnchorCount(images)
    && forall i :: 0 <= i < |images| ==>
         && WellFormed(images[i])
         && SrcPosition(images, i) < |r|
         && r[SrcPosition(images, i)] == images[i].src.value
         && (images[i].parent.AnchorParent? ==>
               SrcPosition(images, i) + 1 < |r|
               && r[SrcPosition(images, i) + 1] == images[i].parent.link.href.value)
  }

  /** A successful collection is laid out image by image. */
  lemma {:induction false} CandidatesLayout(images: seq<Image>)
    requires CollectCandidates(images).Success?
    ensures Layout(images, CollectCandidates(images).value)
  {
    if |images| > 0 {
      var tail := images[1..];
      CandidatesLayout(tail);
      assert images == [images[0]] + tail;
      LayoutCons(images[0], tail, CollectCandidates(tail).value);
    }
  }

  /** Putting an image in front shifts every later `src` by its contribution. */
  lemma SrcPositionCons(img: Image, tail: seq<Image>)
    ensures forall i :: 1 <= i <= |tail| ==>
              SrcPosition([img] + tail, i) ==
                (if img.parent.AnchorParent? then 2 else 1) + SrcPosition(tail, i - 1)
  {
    var images := [img] + tail;
    forall i | 1 <= i <= |tail|
      ensures SrcPosition(images, i) == (if img.parent.AnchorParent? then 2 else 1) + SrcPosition(tail, i - 1)
    {
      assert images[..i][1..] == tail[..i - 1];
    }
  }

  /** One well-formed image's contribution in front of a laid-out list. */
  lemma LayoutCons(img: Image, tail: seq<Image>, rest: seq<string>)
    requires WellFormed(img) && Layout(tail, rest)
    ensures Layout([img] + tail, Contribution(img).value + rest)
  {
    var images, r := [img] + tail, Contribution(img).value + rest;
    var a := if img.parent.AnchorParent? then 1 else 0;
    assert |Contribution(img).value| == 1 + a;
    assert images[1..] == tail;
    SrcPositionCons(img, tail);
    forall i | 1 <= i < |images|
      ensures images[i] == tail[i - 1]
      ensures r[SrcPosition(images, i)] == rest[SrcPosition(tail, i - 1)]
      ensures SrcPosition(images, i) + 1 < |r| ==>
                r[SrcPosition(images, i) + 1] == rest[SrcPosition(tail, i - 1) + 1]
    {
    }
    assert SrcPosition(images, 0) == 0 by { assert images[..0] == []; }
  }

  // ---------------------------------------------------------------------
  // Allow-list (lines 170-177)
  // ---------------------------------------------------------------------

  /** The `for source in CONTENT_SOURCES` loop: does some fragment occur? */
  function AnyFound(url: string, sources: seq<string>): (b: bool)
    ensures b ==> exists i :: 0 <= i < |sources| && Find(url, sources[i]) >= 0
  {
    if |sources| == 0 then false
    else if Find(url, sources[0]) >= 0 then true
    else AnyFound(url, sources[1..])
  }

  /** The loop with its early `break` finds a fragment exactly when one of
      the fragments occurs in the URL. */
  lemma {:induction false} AnyFoundMeaning(url: string, sources: seq<string>)
    ensures AnyFound(url, sources) <==> exists i :: 0 <= i < |sources| && Contains(url, sources[i])
  {
    if |sources| > 0 {
      AnyFoundMeaning(url, sources[1..]);
      assert forall i :: 1 <= i < |sources| ==> sources[i] == sources[1..][i - 1];
      if Contains(url, sources[0]) {
        assert AnyFound(url, sources);
      }
    }
  }

  /** A candidate is downloaded exactly when it passes the allow-list. */
  predicate SourceAllowed(url: string) {
    AnyFound(url, CONTENT_SOURCES)
  }

  /** The allow-list accepts exactly the URLs that contain one of the two
      host fragments anywhere. */
  lemma AllowListMeaning(url: string)
    ensures SourceAllowed(url) <==>
              (exists j :: OccursAt(url, "googleusercontent.com", j))
              || (exists j :: OccursAt(url, "blogspot.com", j))
  {
    AnyFoundMeaning(url, CONTENT_SOURCES);
    assert CONTENT_SOURCES[0] == "googleusercontent.com";
    assert CONTENT_SOURCES[1] == "blogspot.com";
    if Contains(url, CONTENT_SOURCES[0]) || Contains(url, CONTENT_SOURCES[1]) {
      assert SourceAllowed(url);
    }
  }

  /** The candidates that pass the allow-list, in order. */
  function Kept(cands: seq<string>): (r: seq<string>)
    ensures |r| <= |cands|
    ensures forall i :: 0 <= i < |r| ==> r[i] in cands
  {
    if |cands| == 0 then []
    else if SourceAllowed(cands[0]) then [cands[0]] + Kept(cands[1..])
    else Kept(cands[1..])
  }

  /** The kept candidates are all allowed, and every allowed candidate is
      kept. */
  lemma {:induction false} KeptSpec(cands: seq<string>)
    ensures forall i :: 0 <= i < |Kept(cands)| ==> SourceAllowed(Kept(cands)[i])
    ensures forall i :: 0 <= i < |cands| && SourceAllowed(cands[i]) ==> cands[i] in Kept(cands)
  {
    if |cands| > 0 {
      var tail := cands[1..];
      KeptSpec(tail);
      assert forall i :: 1 <= i < |cands| ==> cands[i] == tail[i - 1];
      if SourceAllowed(cands[0]) {
        var k := Kept(cands);
        assert k == [cands[0]] + Kept(tail);
        assert forall i :: 1 <= i < |k| ==> k[i] == Kept(tail)[i - 1];
      }
    }
  }

  // ---------------------------------------------------------------------
  // Output names (lines 209-212)
  // ---------------------------------------------------------------------

  /** `f"{year:04d}-{month:02d}-{id}-{subid:04d}{ext}"`; the file is written
      at `images/<name>`. */
  function OutputName(item: DownloadItem, id: string, subid: nat, ext: string): (r: string)
    ensures |r| == |ZeroPad(item.year, 4)| + |ZeroPad(item.month, 2)| + |id| + |ZeroPad(subid, 4)| + |ext| + 3
    ensures |r| >= 13 + |id| + |ext|
    ensures r[|r| - |ext|..] == ext
  {
    ZeroPad(item.year, 4) + "-" + ZeroPad(item.month, 2) + "-" + id + "-" + ZeroPad(subid, 4) + ext
  }

  /** A digit run ends at the first non-digit, so a digit run followed by a
      non-digit can be read back unambiguously. */
  lemma DigitRun(d1: string, c1: char, r1: string, d2: string, c2: char, r2: string)
    requires IsDigits(d1) && IsDigits(d2) && !IsDigit(c1) && !IsDigit(c2)
    requires d1 + [c1] + r1 == d2 + [c2] + r2
    ensures d1 == d2 && c1 == c2 && r1 == r2
  {
    var s := d1 + [c1] + r1;
    assert |d1| == |d2| by {
      assert s[|d1|] == c1 && s == d2 + [c2] + r2 && s[|d2|] == c2;
    }
    assert d1 == s[..|d1|] == d2;
    assert s[|d1|] == c1 && s[|d2|] == c2;
    assert r1 == s[|d1| + 1..] == r2;
  }

  /** Two writes with the same file name come from the same year, month,
      ID string, sub-index and extension: distinct fields give distinct
      names. Distinct posts can still share an ID string, since the ID is
      the padded value of the post number (see `PostId.SameNumberSameId`);
      when both are listed under the same month, their images with the same
      sub-index and extension overwrite each other. */
  lemma OutputNameInjective(item1: DownloadItem, id1: string, subid1: nat, ext1: string,
                            item2: DownloadItem, id2: string, subid2: nat, ext2: string)
    requires IsDigits(id1) && IsDigits(id2)
    requires |ext1| >= 1 && ext1[0] == '.' && |ext2| >= 1 && ext2[0] == '.'
    requires OutputName(item1, id1, subid1, ext1) == OutputName(item2, id2, subid2, ext2)
    ensures item1.year == item2.year && item1.month == item2.month
    ensures id1 == id2 && subid1 == subid2 && ext1 == ext2
  {
    var y1, m1, s1 := ZeroPad(item1.year, 4), ZeroPad(item1.month, 2), ZeroPad(subid1, 4);
    var y2, m2, s2 := ZeroPad(item2.year, 4), ZeroPad(item2.month, 2), ZeroPad(subid2, 4);
    LayoutInjective(y1, m1, id1, s1, ext1, y2, m2, id2, s2, ext2);
    ZeroPadValue(item1.year, 4);
    ZeroPadValue(item2.year, 4);
    ZeroPadValue(item1.month, 2);
    ZeroPadValue(item2.month, 2);
    ZeroPadValue(subid1, 4);
    ZeroPadValue(subid2, 4);
  }

  /** The field-level reading of the name layout. */
  lemma LayoutInjective(y1: string, m1: string, id1: string, s1: string, ext1: string,
                        y2: string, m2: string, id2: string, s2: string, ext2: string)
    requires IsDigits(y1) && IsDigits(m1) && IsDigits(id1) && IsDigits(s1)
    requires IsDigits(y2) && IsDigits(m2) && IsDigits(id2) && IsDigits(s2)
    requires |ext1| >= 1 && ext1[0] == '.' && |ext2| >= 1 && ext2[0] == '.'
    requires y1 + "-" + m1 + "-" + id1 + "-" + s1 + ext1 == y2 + "-" + m2 + "-" + id2 + "-" + s2 + ext2
    ensures y1 == y2 && m1 == m2 && id1 == id2 && s1 == s2 && ext1 == ext2
  {
    var t1 := s1 + [ext1[0]] + ext1[1..];
    var t2 := s2 + [ext2[0]] + ext2[1..];
    assert s1 + ext1 == t1 && s2 + ext2 == t2;
    var i1 := id1 + ['-'] + t1;
    var i2 := id2 + ['-'] + t2;
    var n1 := m1 + ['-'] + i1;
    var n2 := m2 + ['-'] + i2;
    assert y1 + "-" + m1 + "-" + id1 + "-" + s1 + ext1 == y1 + ['-'] + n1;
    assert y2 + "-" + m2 + "-" + id2 + "-" + s2 + ext2 == y2 + ['-'] + n2;
    DigitRun(y1, '-', n1, y2, '-', n2);
    DigitRun(m1, '-', i1, m2, '-', i2);
    DigitRun(id1, '-', t1, id2, '-', t2);
    DigitRun(s1, ext1[0], ext1[1..], s2, ext2[0], ext2[1..]);
    assert ext1 == [ext1[0]] + ext1[1..];
    assert ext2 == [ext2[0]] + ext2[1..];
  }

  /** A name built from a numeric post identifier and an extension without
      '/' has no '/' either: every image lands directly in `images/`. */
  lemma OutputNameHasNoSlash(item: DownloadItem, id: string, subid: nat, ext: string)
    requires IsDigits(id) && '/' !in ext
    ensures '/' !in OutputName(item, id, subid, ext)
  {
    var y, m, s := ZeroPad(item.year, 4), ZeroPad(item.month, 2), ZeroPad(subid, 4);
    assert forall i :: 0 <= i < |y| ==> IsDigit(y[i]);
    assert forall i :: 0 <= i < |m| ==> IsDigit(m[i]);
    assert forall i :: 0 <= i < |id| ==> IsDigit(id[i]);
    assert forall i :: 0 <= i < |s| ==> IsDigit(s[i]);
    assert '/' !in y && '/' !in m && '/' !in id && '/' !in s;
  }

  /** The names of the first two images of post 42 in October 2023. */
  lemma NameExample()
    ensures OutputName(DownloadItem(2023, 10, ""), "0000000042", 0, ".png")
            == "2023-10-0000000042-0000.png"
    ensures OutputName(DownloadItem(2023, 10, ""), "0000000042", 1, ".jpg")
            == "2023-10-0000000042-0001.jpg"
  {
    PadExamples();
    NameOf("0000", ".png");
    NameOf("0001", ".jpg");
  }

  /** The name of an image of post 42 in October 2023, given its padded
      sub-index. */
  lemma NameOf(sub: string, ext: string)
    requires |sub| == 4 && |ext| == 4
    ensures "2023" + "-" + "10" + "-" + "0000000042" + "-" + sub + ext
            == "2023-10-0000000042-" + sub + ext
  {
  }

  lemma PadExamples()
    ensures ZeroPad(2023, 4) == "2023" && ZeroPad(10, 2) == "10"
    ensures ZeroPad(0, 4) == "0000" && ZeroPad(1, 4) == "0001"
  {
    assert Show(202) == Show(20) + "2";
    assert Show(2023) == Show(202) + "3";
    assert Show(2023) == "2023";
    assert Show(10) == "10";
    assert Show(0) == "0" && Show(1) == "1";
  }

  // ---------------------------------------------------------------------
  // The per-candidate loop (lines 158-217)
  // ---------------------------------------------------------------------

  /** The effects of the loop over the candidates, `subid` being the next
      sub-index: a rejected candidate is skipped, a kept one is downloaded
      and written under the next sub-index. `extOf` gives the extension a
      downloaded URL is written with (`ChooseExtension` of its bytes and its
      URL path). */
  function PlanImages(item: DownloadItem, id: string, cands: seq<string>, subid: nat,
                      extOf: string -> string): (r: seq<Action>)
    ensures |r| == |cands|
  {
    if |cands| == 0 then []
    else if !SourceAllowed(cands[0]) then
      [SkipImage(cands[0])] + PlanImages(item, id, cands[1..], subid, extOf)
    else
      var name := OutputName(item, id, subid, extOf(cands[0]));
      [WriteImage(name, cands[0], subid)] + PlanImages(item, id, cands[1..], subid + 1, extOf)
  }

  /** `r` has one action per candidate, in order: a candidate is written
      exactly when it passes the allow-list, under the name its sub-index and
      extension give, and no page is requested. */
  predicate Planned(item: DownloadItem, id: string, cands: seq<string>, extOf: string -> string, r: seq<Action>) {
    && |r| == |cands|
    && (forall i :: 0 <= i < |r| ==> !r[i].LoadPage? && r[i].url == cands[i])
    && (forall i :: 0 <= i < |r| ==> (r[i].WriteImage? <==> SourceAllowed(cands[i])))
    && (forall i :: 0 <= i < |r| && r[i].WriteImage? ==>
          r[i].fileName == OutputName(item, id, r[i].subid, extOf(cands[i])))
  }

  /** The plan for the candidates is planned candidate by candidate. */
  lemma {:induction false} PlanImagesSpec(item: DownloadItem, id: string, cands: seq<string>, subid: nat,
                                          extOf: string -> string)
    ensures Planned(item, id, cands, extOf, PlanImages(item, id, cands, subid, extOf))
  {
    if |cands| > 0 {
      var c, tail := cands[0], cands[1..];
      var next := if SourceAllowed(c) then subid + 1 else subid;
      PlanImagesSpec(item, id, tail, next, extOf);
      var act := if SourceAllowed(c) then WriteImage(OutputName(item, id, subid, extOf(c)), c, subid)
                 else SkipImage(c);
      assert PlanImages(item, id, cands, subid, extOf) == [act] + PlanImages(item, id, tail, next, extOf);
      assert cands == [c] + tail;
      PlannedCons(item, id, c, tail, extOf, act, PlanImages(item, id, tail, next, extOf));
    }
  }

  /** One planned candidate in front of a planned list. */
  lemma PlannedCons(item: DownloadItem, id: string, c: string, tail: seq<string>, extOf: string -> string,
                    act: Action, rest: seq<Action>)
    requires Planned(item, id, tail, extOf, rest)
    requires !act.LoadPage? && act.url == c && (act.WriteImage? <==> SourceAllowed(c))
    requires act.WriteImage? ==> act.fileName == OutputName(item, id, act.subid, extOf(c))
    ensures Planned(item, id, [c] + tail, extOf, [act] + rest)
  {
    var cands, r := [c] + tail, [act] + rest;
    forall i | 1 <= i < |r| ensures r[i] == rest[i - 1] && cands[i] == tail[i - 1] {
    }
  }

  /** The (URL, sub-index) pairs of the writes in a trace, in order. */
  function Writes(trace: seq<Action>): seq<(string, nat)> {
    if |trace| == 0 then []
    else if trace[0].WriteImage? then [(trace[0].url, trace[0].subid)] + Writes(trace[1..])
    else Writes(trace[1..])
  }

  lemma {:induction false} WritesAppend(a: seq<Action>, b: seq<Action>)
    ensures Writes(a + b) == Writes(a) + Writes(b)
  {
    if |a| == 0 {
      assert a + b == b;
    } else {
      WritesAppend(a[1..], b);
      assert (a + b)[0] == a[0];
      assert (a + b)[1..] == a[1..] + b;
    }
  }

  /** A page request writes nothing. */
  lemma WritesAfterLoad(href: string, useCache: bool, t: seq<Action>)
    ensures Writes([LoadPage(href, useCache)] + t) == Writes(t)
  {
    var s := [LoadPage(href, useCache)] + t;
    assert s[0] == LoadPage(href, useCache) && s[1..] == t;
  }

  /** `w` is the list `kept` paired with consecutive sub-indices from
      `subid`. */
  predicate Numbered(w: seq<(string, nat)>, kept: seq<string>, subid: nat) {
    |w| == |kept| && forall j :: 0 <= j < |kept| ==> w[j] == (kept[j], subid + j)
  }

  /** The images written for a post are the kept candidates in encounter
      order, numbered consecutively from `subid`: a rejected candidate
      neither writes a file nor uses up a sub-index. */
  lemma {:induction false} PlanWritesKept(item: DownloadItem, id: string, cands: seq<string>, subid: nat,
                                          extOf: string -> string)
    ensures Numbered(Writes(PlanImages(item, id, cands, subid, extOf)), Kept(cands), subid)
  {
    if |cands| > 0 {
      var c, tail := cands[0], cands[1..];
      var w := Writes(PlanImages(item, id, cands, subid, extOf));
      if !SourceAllowed(c) {
        PlanWritesKept(item, id, tail, subid, extOf);
        var rest := PlanImages(item, id, tail, subid, extOf);
        assert PlanImages(item, id, cands, subid, extOf) == [SkipImage(c)] + rest;
        WritesAppend([SkipImage(c)], rest);
        assert Writes([SkipImage(c)]) == [];
        assert w == Writes(rest);
        assert Kept(cands) == Kept(tail);
      } else {
        var next := subid + 1;
        PlanWritesKept(item, id, tail, next, extOf);
        var act := WriteImage(OutputName(item, id, subid, extOf(c)), c, subid);
        var rest := PlanImages(item, id, tail, next, extOf);
        assert PlanImages(item, id, cands, subid, extOf) == [act] + rest;
        WritesAppend([act], rest);
        assert Writes([act]) == [(c, subid)];
        assert w == [(c, subid)] + Writes(rest);
        assert Kept(cands) == [c] + Kept(tail);
        NumberedCons(c, Kept(tail), Writes(rest), subid);
      }
    }
  }

  /** Prepending the write of `c` under `subid` to writes numbered from
      `subid + 1` gives writes numbered from `subid`. */
  lemma NumberedCons(c: string, kept: seq<string>, w: seq<(string, nat)>, subid: nat)
    requires Numbered(w, kept, subid + 1)
    ensures Numbered([(c, subid)] + w, [c] + kept, subid)
  {
    var w', kept' := [(c, subid)] + w, [c] + kept;
    forall j | 0 <= j < |kept'| ensures w'[j] == (kept'[j], subid + j) {
      if j > 0 {
        assert w'[j] == w[j - 1] && kept'[j] == kept[j - 1];
      }
    }
  }
}

=== FILE: PageCache.dfy ===
/** The page cache: the file name a page is cached under and the
    read-through/write-through behaviour of `__download_page`
    (src/boli_blog_downloader/app.py:251-271). The cache directory is modelled
    as a map from file name to the text written to the file; the network as a
    function from href to page text. */
module PageCache {
  import opened Text

  /** The character a cache file name uses for `c`. */
  function Sanitized(c: char): char {
    if c == ':' || c == '/' then '_' else c
  }

  /** `href.replace(":", "_").replace("/", "_") + ".html"`. */
  function CacheFileName(href: string): (r: string)
    ensures |r| == |href| + 5
    ensures r[|href|..] == ".html"
    ensures forall i :: 0 <= i < |href| ==> r[i] == Sanitized(href[i])
    ensures ':' !in r && '/' !in r
  {
    var body := ReplaceChar(ReplaceChar(href, ':', '_'), '/', '_');
    assert forall i :: 0 <= i < |body| ==> body[i] == Sanitized(href[i]);
    var name := body + ".html";
    assert name[|href|..] == ".html";
    assert forall i :: 0 <= i < |name| ==> name[i] != ':' && name[i] != '/' by {
      forall i | 0 <= i < |name| ensures name[i] != ':' && name[i] != '/' {
        if i < |body| { assert name[i] == body[i]; } else { assert name[i] == ".html"[i - |body|]; }
      }
    }
    name
  }

  /** Two hrefs share a cache file exactly when they have the same length and
      agree everywhere once ':' and '/' are both read as '_'. */
  lemma SameCacheFile(h1: string, h2: string)
    ensures CacheFileName(h1) == CacheFileName(h2) <==>
              |h1| == |h2| && forall i :: 0 <= i < |h1| ==> Sanitized(h1[i]) == Sanitized(h2[i])
  {
    var n1, n2 := CacheFileName(h1), CacheFileName(h2);
    if |h1| == |h2| && forall i :: 0 <= i < |h1| ==> Sanitized(h1[i]) == Sanitized(h2[i]) {
      assert forall i :: 0 <= i < |n1| ==> n1[i] == n2[i] by {
        forall i | 0 <= i < |n1| ensures n1[i] == n2[i] {
          if i >= |h1| {
            assert n1[i] == n1[|h1|..][i - |h1|];
            assert n2[i] == n2[|h2|..][i - |h2|];
          }
        }
      }
    }
    if n1 == n2 {
      forall i | 0 <= i < |h1| ensures Sanitized(h1[i]) == Sanitized(h2[i]) {
        assert n1[i] == n2[i];
      }
    }
  }

  /** Different hrefs can share a cache file: a page and its look-alike. */
  lemma CacheFileCollision()
    ensures "a:b" != "a/b"
    ensures CacheFileName("a:b") == CacheFileName("a/b")
  {
    SameCacheFile("a:b", "a/b");
  }

  /** The text a file holding `s` reads back as in Python's text mode with
      the default universal newlines: "\r\n" and a lone '\r' each become
      '\n', everything else is kept. */
  function Universal(s: string): (r: string)
    ensures '\r' !in r
    ensures |r| <= |s|
    ensures '\r' !in s ==> r == s
  {
    if |s| == 0 then ""
    else if s[0] == '\r' then
      if |s| >= 2 && s[1] == '\n' then "\n" + Universal(s[2..]) else "\n" + Universal(s[1..])
    else
      assert s == [s[0]] + s[1..];
      [s[0]] + Universal(s[1..])
  }

  /** Reading back changes a text exactly when it holds a '\r', and reading
      back twice is reading back once. */
  lemma UniversalFixed(s: string)
    ensures Universal(s) == s <==> '\r' !in s
    ensures Universal(Universal(s)) == Universal(s)
  {
  }

  /** A single character reads back as itself, except '\r', which reads
      back as '\n'; a "\r\n" pair reads back as one '\n'. */
  lemma UniversalUnits(c: char)
    ensures Universal([c]) == if c == '\r' then "\n" else [c]
    ensures Universal("\r\n") == "\n"
  {
    assert [c][1..] == [];
    assert "\r\n"[2..] == "";
  }

  /** Reading back works piece by piece, except where the first piece ends
      in a '\r' that a '\n' starting the second piece would pair with. Together
      with `UniversalUnits` this says every "\r\n" and every lone '\r'
      becomes exactly one '\n' in place. */
  lemma {:induction false} UniversalAppend(a: string, b: string)
    requires !(|a| > 0 && a[|a| - 1] == '\r' && |b| > 0 && b[0] == '\n')
    ensures Universal(a + b) == Universal(a) + Universal(b)
  {
    if |a| == 0 {
      assert a + b == b;
    } else if a[0] != '\r' {
      UniversalAppend(a[1..], b);
      FrontOther(a, b);
    } else if |a| == 1 {
      assert a == "\r";
      LoneCR(b);
      UniversalUnits('\r');
    } else if a[1] == '\n' {
      UniversalAppend(a[2..], b);
      FrontPair(a, b);
    } else {
      UniversalAppend(a[1..], b);
      FrontLone(a, b);
    }
  }

  /** A '\r' not followed by '\n' becomes '\n', and the rest is read back
      on its own. */
  lemma LoneCR(b: string)
    requires |b| == 0 || b[0] != '\n'
    ensures Universal("\r" + b) == "\n" + Universal(b)
  {
    assert ("\r" + b)[1..] == b;
  }

  /** A first character other than '\r' is kept whether or not `b` follows. */
  lemma FrontOther(a: string, b: string)
    requires |a| >= 1 && a[0] != '\r'
    requires Universal(a[1..] + b) == Universal(a[1..]) + Universal(b)
    ensures Universal(a + b) == Universal(a) + Universal(b)
  {
    assert (a + b)[1..] == a[1..] + b;
    ConcatAssoc([a[0]], Universal(a[1..]), Universal(b));
  }

  /** A leading "\r\n" becomes '\n' whether or not `b` follows. */
  lemma FrontPair(a: string, b: string)
    requires |a| >= 2 && a[0] == '\r' && a[1] == '\n'
    requires Universal(a[2..] + b) == Universal(a[2..]) + Universal(b)
    ensures Universal(a + b) == Universal(a) + Universal(b)
  {
    assert (a + b)[2..] == a[2..] + b;
    ConcatAssoc("\n", Universal(a[2..]), Universal(b));
  }

  /** A leading '\r' not followed by '\n' in `a` becomes '\n' whether or
      not `b` follows. */
  lemma FrontLone(a: string, b: string)
    requires |a| >= 2 && a[0] == '\r' && a[1] != '\n'
    requires Universal(a[1..] + b) == Universal(a[1..]) + Universal(b)
    ensures Universal(a + b) == Universal(a) + Universal(b)
  {
    assert (a + b)[1..] == a[1..] + b;
    ConcatAssoc("\n", Universal(a[1..]), Universal(b));
  }

  /** Both Windows and old Mac line ends read back as '\n'. */
  lemma UniversalExample()
    ensures Universal("a\r\nb") == "a\nb"
    ensures Universal("a\rb") == "a\nb"
    ensures Universal("a\r\rb") == "a\n\nb"
  {
    assert "a\r\nb"[1..] == "\r\nb" && "\r\nb"[2..] == "b";
    assert "a\rb"[1..] == "\rb" && "\rb"[1..] == "b";
    assert "a\r\rb"[1..] == "\r\rb" && "\r\rb"[1..] == "\rb";
  }

  /** The cache directory: file name to the text written to the file. */
  type Store = map<string, string>

  /** What `__download_page` returns, the cache afterwards, and whether the
      network was used. */
  datatype Fetched = Fetched(text: string, store: Store, fromNetwork: bool)

  /** `__download_page(href, use_cache)`: with `use_cache` and a cached file,
      the file's text as text mode reads it back; otherwise the network's
      text, returned as received and also written to the cache file. */
  function DownloadPage(store: Store, href: string, useCache: bool, network: string -> string): (r: Fetched)
    ensures CacheFileName(href) in r.store
    ensures Universal(r.text) == Universal(r.store[CacheFileName(href)])
    ensures r.store.Keys == store.Keys + {CacheFileName(href)}
    ensures forall k :: k in store && k != CacheFileName(href) ==> r.store[k] == store[k]
    ensures r.fromNetwork <==> !useCache || CacheFileName(href) !in store
    ensures r.fromNetwork ==> r.text == network(href) && r.store[CacheFileName(href)] == r.text
    ensures !r.fromNetwork ==> r.store == store && r.text == Universal(store[CacheFileName(href)])
  {
    var key := CacheFileName(href);
    if useCache && key in store then
      UniversalFixed(store[key]);
      Fetched(Universal(store[key]), store, false)
    else
      var text := network(href);
      Fetched(text, store[key := text], true)
  }

  /** Once a page has been downloaded, a cached download of the same href
      returns the same text up to line ends, without the network, whatever
      the network would now say, and leaves the cache as it is; a text
      without '\r' comes back exactly. */
  lemma CachedAfterDownload(store: Store, href: string, useCache: bool,
                            network: string -> string, later: string -> string)
    ensures var first := DownloadPage(store, href, useCache, network);
            var again := DownloadPage(first.store, href, true, later);
            again == Fetched(Universal(first.text), first.store, false)
    ensures var first := DownloadPage(store, href, useCache, network);
            '\r' !in first.text ==> DownloadPage(first.store, href, true, later).text == first.text
  {
    var first := DownloadPage(store, href, useCache, network);
    UniversalFixed(first.store[CacheFileName(href)]);
  }

  /** A page served with Windows line ends is returned as received when
      downloaded and with '\n' line ends when read back from the cache. */
  lemma LineEndsChangeOnReread(network: string -> string, later: string -> string)
    requires network("p") == "a\r\nb"
    ensures DownloadPage(map[], "p", true, network).text == "a\r\nb"
    ensures DownloadPage(DownloadPage(map[], "p", true, network).store, "p", true, later).text == "a\nb"
  {
    CachedAfterDownload(map[], "p", true, network, later);
    UniversalExample();
  }

  /** With `use_cache=False` the network is always asked, even when the page
      is cached; this is how the listing of the first archive link in document order
      is refreshed. */
  lemma RefreshBypassesCache(store: Store, href: string, network: string -> string)
    ensures DownloadPage(store, href, false, network).fromNetwork
    ensures DownloadPage(store, href, false, network).text == network(href)
  {
  }

  /** Because look-alike hrefs share a file, a cached download of `a/b` after
      one of `a:b` returns the page of `a:b`, read back. */
  lemma CollisionServesOtherPage(store: Store, network: string -> string, later: string -> string)
    ensures var first := DownloadPage(store, "a:b", true, network);
            DownloadPage(first.store, "a/b", true, later).text == Universal(first.text)
  {
    CacheFileCollision();
    var first := DownloadPage(store, "a:b", true, network);
    UniversalFixed(first.store[CacheFileName("a:b")]);
  }
}

=== FILE: PathExt.dfy ===
/** Python's `os.path.splitext` on POSIX: the extension of the last path
    component, where leading dots of that component do not start an
    extension. */
module PathExt {
  import opened Text

  /** The scan over the leading part of the last component: is there a
      character other than '.' at some index in `[i, dot)`? */
  function HasNonDotBefore(p: string, i: nat, dot: nat): (b: bool)
    requires dot <= |p|
    ensures b <==> exists k :: i <= k < dot && p[k] != '.'
    decreases dot - i
  {
    if i >= dot then false
    else if p[i] != '.' then true
    else HasNonDotBefore(p, i + 1, dot)
  }

  /** The last path component contains a '.' somewhere after a character
      that is neither '.' nor '/': exactly the paths with an extension. */
  predicate HasExtension(p: string) {
    exists i, j :: 0 <= i < j < |p| && p[i] != '.' && p[i] != '/' && p[j] == '.'
                   && (forall k :: i <= k < |p| ==> p[k] != '/')
  }

  /** `os.path.splitext(p)` as `(root, ext)`. */
  function SplitExt(p: string): (r: (string, string))
    ensures r.0 + r.1 == p
    ensures r.1 == "" || r.1[0] == '.'
    ensures forall k :: 0 < k < |r.1| ==> r.1[k] != '.' && r.1[k] != '/'
  {
    var sepIndex := LastIndexOf(p, '/');
    var dotIndex := LastIndexOf(p, '.');
    if dotIndex > sepIndex && HasNonDotBefore(p, sepIndex + 1, dotIndex) then
      assert p[..dotIndex] + p[dotIndex..] == p;
      (p[..dotIndex], p[dotIndex..])
    else
      assert p + "" == p;
      (p, "")
  }

  /** The extension is non-empty exactly when the last component has a dot
      after some non-dot character, and it then runs from the last dot. */
  lemma ExtensionCharacterised(p: string)
    ensures SplitExt(p).1 != "" <==> HasExtension(p)
    ensures HasExtension(p) ==> SplitExt(p).1 == p[LastIndexOf(p, '.')..]
  {
    var sepIndex := LastIndexOf(p, '/');
    var dotIndex := LastIndexOf(p, '.');
    if SplitExt(p).1 != "" {
      assert dotIndex > sepIndex && HasNonDotBefore(p, sepIndex + 1, dotIndex);
      var k :| sepIndex + 1 <= k < dotIndex && p[k] != '.';
      assert p[k] != '/';
      assert forall m :: k <= m < |p| ==> p[m] != '/';
      assert p[dotIndex] == '.';
    }
    if HasExtension(p) {
      var i, j :| 0 <= i < j < |p| && p[i] != '.' && p[i] != '/' && p[j] == '.'
                  && (forall k :: i <= k < |p| ==> p[k] != '/');
      assert sepIndex < i;
      assert j <= dotIndex;
      assert HasNonDotBefore(p, sepIndex + 1, dotIndex);
    }
  }

  /** An unrecognised image whose URL path ends in `.webp` keeps `.webp`. */
  lemma WebpExample()
    ensures SplitExt("/img/photo.webp").1 == ".webp"
  {
    var p := "/img/photo.webp";
    LastIndexOfIs(p, '/', 4);
    LastIndexOfIs(p, '.', 10);
    assert HasNonDotBefore(p, 5, 10) by { assert p[5] != '.'; }
    assert p[10..] == ".webp";
  }

  /** Only the last dot starts the extension. */
  lemma LastDotExample()
    ensures SplitExt("/a.tar.gz").1 == ".gz"
  {
    var p := "/a.tar.gz";
    LastIndexOfIs(p, '/', 0);
    LastIndexOfIs(p, '.', 6);
    assert HasNonDotBefore(p, 1, 6) by { assert p[1] != '.'; }
    assert p[6..] == ".gz";
  }

  /** A dot that only leads the last component does not start an extension. */
  lemma LeadingDotExample()
    ensures SplitExt("/images/.hidden").1 == ""
  {
    var p := "/images/.hidden";
    LastIndexOfIs(p, '/', 7);
    LastIndexOfIs(p, '.', 8);
    assert !HasNonDotBefore(p, 8, 8);
  }
}

=== FILE: PostId.dfy ===
/** Turning an article's `id` attribute such as `post-42` into the identifier
    used in image file names, the post number zero-padded to at least ten
    digits (src/boli_blog_downloader/app.py:115-119). */
module PostId {
  import opened Results
  import opened Text
  import opened Decimal
  import opened Records

  /** Minimum width of the numeric identifier (`:010d`). */
  const ID_WIDTH: nat := 10

  /** The text after the last '-', which is the second token whenever the
      identifier has exactly one '-'. */
  function NumberPart(postId: string): string {
    postId[LastIndexOf(postId, '-') + 1..]
  }

  /** `f"{int(post_id.split("-")[1]):010d}"`, after rejecting identifiers that
      do not split into exactly two tokens. */
  function NumericId(postId: string): (r: Result<string, Error>)
    ensures r == Failure(UnsupportedIdFormat(postId)) <==> Count(postId, '-') != 1
    ensures Count(postId, '-') == 1 ==>
              (r.Success? <==> IsNumeral(NumberPart(postId)))
    ensures Count(postId, '-') == 1 && r.Failure? ==> r.error == InvalidLiteral(NumberPart(postId))
    ensures r.Success? ==> IsDigits(r.value) && |r.value| >= ID_WIDTH
    ensures r.Success? ==> Value(r.value) == Value(NumberPart(postId))
    ensures r.Success? ==>
              var shown := |Show(Value(NumberPart(postId)))|;
              |r.value| == if shown >= ID_WIDTH then shown else ID_WIDTH
  {
    var tokens := Split(postId, '-');
    if |tokens| != 2 then Failure(UnsupportedIdFormat(postId))
    else
      TwoTokens(postId, '-');
      var n :- ToInt(tokens[1]);
      ZeroPadValue(n, ID_WIDTH);
      Success(ZeroPad(n, ID_WIDTH))
  }

  /** A string with exactly one separator splits into the text before it and
      the text after it. */
  lemma TwoTokens(s: string, sep: char)
    requires Count(s, sep) == 1
    ensures Split(s, sep) == [s[..LastIndexOf(s, sep)], s[LastIndexOf(s, sep) + 1..]]
  {
    var parts := Split(s, sep);
    JoinSplit(s, sep);
    assert Join(parts[1..], sep) == parts[1];
    var front := parts[0] + [sep];
    assert s == front + parts[1];
    LastIndexOfAppend(front, parts[1], sep);
    assert LastIndexOf(front, sep) == |parts[0]|;
    assert s[..|parts[0]|] == parts[0];
    assert s[|parts[0]| + 1..] == parts[1];
  }

  /** A number of at most ten digits is padded as written, so `post-42` gives
      `0000000042` and `post-0042` gives the same. */
  lemma PadsShortNumber(postId: string)
    requires Count(postId, '-') == 1
    requires |NumberPart(postId)| >= 1 && IsDigits(NumberPart(postId))
    requires |NumberPart(postId)| <= ID_WIDTH
    ensures NumericId(postId) == Success(Zeros(ID_WIDTH - |NumberPart(postId)|) + NumberPart(postId))
  {
    TwoTokens(postId, '-');
    PadNumeral(NumberPart(postId), ID_WIDTH);
  }

  /** Two post IDs whose number parts denote the same value get the same
      identifier, whatever their prefixes and leading zeros: `post-42` and
      `page-042` both give `0000000042`, so their images get the same names. */
  lemma SameNumberSameId(p1: string, p2: string)
    requires Count(p1, '-') == 1 && Count(p2, '-') == 1
    requires IsNumeral(NumberPart(p1)) && IsNumeral(NumberPart(p2))
    requires Value(NumberPart(p1)) == Value(NumberPart(p2))
    ensures NumericId(p1).Success? && NumericId(p1) == NumericId(p2)
  {
    TwoTokens(p1, '-');
    TwoTokens(p2, '-');
  }

  /** `post-42` gives `0000000042`. */
  lemma Example()
    ensures NumericId("post-42") == Success("0000000042")
  {
    ExampleTokens();
    PadsShortNumber("post-42");
    ExamplePadding();
  }

  lemma ExampleTokens()
    ensures Count("post-42", '-') == 1 && NumberPart("post-42") == "42"
  {
    var p := "post-42";
    assert p[4] == '-';
    CountOnce(p, '-', 4);
    LastIndexOfIs(p, '-', 4);
    assert p[5..] == "42";
  }

  /** `post-42` and `page-042` are different articles with the same
      identifier. */
  lemma Collision()
    ensures "post-42" != "page-042"
    ensures NumericId("page-042") == NumericId("post-42") == Success("0000000042")
  {
    Example();
    ExampleTokens();
    CollisionTokens();
    CollisionValue();
    SameNumberSameId("post-42", "page-042");
  }

  lemma CollisionTokens()
    ensures Count("page-042", '-') == 1 && NumberPart("page-042") == "042"
  {
    var p := "page-042";
    assert p[4] == '-';
    CountOnce(p, '-', 4);
    LastIndexOfIs(p, '-', 4);
    assert p[5..] == "042";
  }

  lemma CollisionValue()
    ensures IsNumeral("042") && IsNumeral("42") && Value("042") == Value("42")
  {
    assert IsDigits("42") by { assert forall i :: 0 <= i < 2 ==> IsDigit("42"[i]); }
    LeadingZeros(1, "42");
    assert Zeros(1) + "42" == "042";
  }

  lemma ExamplePadding()
    ensures Zeros(ID_WIDTH - 2) + "42" == "0000000042"
  {
  }
}

=== FILE: Records.dfy ===
/** The values the crawler passes around: archive items, the parts of a page
    the crawler looks at, the errors that stop a run and the effects a run
    has on the outside world. */
module Records {
  import opened Results
  import Decimal

  /** One monthly archive listing (src/boli_blog_downloader/app.py:15-19).
      The year and month are only ever built from `int()` of a digit string,
      hence `nat`. */
  datatype DownloadItem = DownloadItem(year: nat, month: nat, href: string)

  /** An `<a>` element; `href` is `None` when the attribute is missing. */
  datatype Link = Link(href: Option<string>)

  /** An `<h1 class="entry-title">` and the first `<a>` inside it, if any. */
  datatype Title = Title(link: Option<Link>)

  /** An `<article class="post">`: its `id` attribute and its title heading. */
  datatype Article = Article(id: Option<string>, title: Option<Title>)

  /** The element directly enclosing an `<img>`. */
  datatype Parent = AnchorParent(link: Link) | OtherParent

  /** An `<img>` inside the post's content block. */
  datatype Image = Image(src: Option<string>, parent: Parent)

  /** What ends a run early. The first ten are raised as
      `DownloaderException`; `InvalidLiteral` is the `ValueError` of `int()`
      and `IndexOutOfRange` the `IndexError` of `tokens[1]`. */
  datatype Error =
    | ArchiveNotFound
    | ArchiveItemMissingHref
    | ArticleMissingId
    | ArticleTitleNotFound
    | ArticleAddressNotFound
    | ArticleAddressMissingHref
    | UnsupportedIdFormat(postId: string)
    | ContentNotFound
    | ImageMissingSrc
    | ImageParentMissingHref
    | InvalidLiteral(literal: string)
    | IndexOutOfRange

  /** The errors `run()` catches (src/boli_blog_downloader/app.py:56). */
  predicate IsDownloaderError(e: Error) {
    !(e.InvalidLiteral? || e.IndexOutOfRange?)
  }

  /** An effect of the crawl, in the order it happens: a page request through
      the page cache, a rejected image candidate, or the image downloaded from
      `url` written to `images/<fileName>`, `subid` being the sub-index the
      name carries. */
  datatype Action =
    | LoadPage(href: string, useCache: bool)
    | SkipImage(url: string)
    | WriteImage(fileName: string, url: string, subid: nat)

  /** Python's `int(s)` as the crawler meets it: a string of one to
      `MAX_STR_DIGITS` ASCII digits gives its value, anything else raises
      `ValueError`. */
  function ToInt(s: string): (r: Result<nat, Error>)
    ensures r.Success? <==> |s| >= 1 && |s| <= Decimal.MAX_STR_DIGITS && Decimal.IsDigits(s)
    ensures r.Success? ==> r.value == Decimal.Value(s)
    ensures r.Failure? ==> r.error == InvalidLiteral(s)
  {
    match Decimal.ParseInt(s)
    case Some(n) => Success(n)
    case None => Failure(InvalidLiteral(s))
  }

  /** The hrefs requested with `use_cache=False`, in order. */
  function Uncached(t: seq<Action>): seq<string> {
    if |t| == 0 then []
    else if t[0].LoadPage? && !t[0].useCache then [t[0].href] + Uncached(t[1..])
    else Uncached(t[1..])
  }

  lemma {:induction false} UncachedAppend(a: seq<Action>, b: seq<Action>)
    ensures Uncached(a + b) == Uncached(a) + Uncached(b)
  {
    if |a| == 0 {
      assert a + b == b;
    } else {
      UncachedAppend(a[1..], b);
      assert (a + b)[0] == a[0];
      assert (a + b)[1..] == a[1..] + b;
    }
  }

  lemma {:induction false} UncachedNone(t: seq<Action>)
    requires forall i :: 0 <= i < |t| ==> !t[i].LoadPage?
    ensures Uncached(t) == []
  {
    if |t| > 0 {
      UncachedNone(t[1..]);
    }
  }
}

=== FILE: Results.dfy ===
/** Failure-compatible Option and Result types used to model the places where
    the downloader raises an exception instead of returning a value. */
module Results {

  /** An optional value: a missing HTML attribute or element is `None`. */
  datatype Option<+T> = None | Some(value: T)

  /** Either a value or the error that stopped the computation. Usable with `:-`. */
  datatype Result<+T, +E> = Success(value: T) | Failure(error: E) {

    predicate IsFailure() {
      Failure?
    }

    function PropagateFailure<U>(): Result<U, E>
      requires Failure?
    {
      Failure(error)
    }

    function Extract(): T
      requires Success?
    {
      value
    }
  }
}

=== FILE: Runs.dfy ===
/** A stage of the crawl as the effects it has and the way it ends, and the
    two ways stages are combined: one after the other, and a loop that runs
    one stage per element and stops at the first exception
    (src/boli_blog_downloader/app.py:62-110). */
module Runs {
  import opened Records

  /** How a stage of the crawl ends: normally, or with the error it raised. */
  datatype Outcome = Completed | Aborted(error: Error)

  /** The effects of a stage, in order, and how it ended. */
  datatype Run = Run(trace: seq<Action>, outcome: Outcome)

  /** `first`, followed by `next` unless `first` raised. */
  function Then(first: Run, next: Run): (r: Run)
    ensures first.outcome.Aborted? ==> r == first
    ensures first.outcome.Completed? ==> r.trace == first.trace + next.trace && r.outcome == next.outcome
  {
    if first.outcome.Aborted? then first
    else Run(first.trace + next.trace, next.outcome)
  }

  /** `for x in xs: step(x)`: the stages of the elements in order, the first
      exception ending the loop. */
  function RunEach<T>(step: T -> Run, xs: seq<T>): (r: Run)
    ensures |xs| == 0 ==> r == Run([], Completed)
  {
    if |xs| == 0 then Run([], Completed)
    else Then(step(xs[0]), RunEach(step, xs[1..]))
  }

  /** The loop completes exactly when the stage of every element does. */
  lemma {:induction false} RunEachCompletes<T>(step: T -> Run, xs: seq<T>)
    ensures RunEach(step, xs).outcome.Completed? <==>
              forall i :: 0 <= i < |xs| ==> step(xs[i]).outcome.Completed?
  {
    if |xs| > 0 {
      RunEachCompletes(step, xs[1..]);
      assert forall i :: 1 <= i < |xs| ==> xs[i] == xs[1..][i - 1];
    }
  }

  /** An aborted loop ends as the stage of its first failing element, every
      element before it having completed. */
  lemma {:induction false} RunEachFirstError<T>(step: T -> Run, xs: seq<T>)
    ensures RunEach(step, xs).outcome.Aborted? ==>
              exists k :: 0 <= k < |xs| &&
                (forall i :: 0 <= i < k ==> step(xs[i]).outcome.Completed?) &&
                RunEach(step, xs).outcome == step(xs[k]).outcome
  {
    if |xs| > 0 && step(xs[0]).outcome.Completed? && RunEach(step, xs).outcome.Aborted? {
      var tail := xs[1..];
      RunEachFirstError(step, tail);
      var k :| 0 <= k < |tail| &&
               (forall i :: 0 <= i < k ==> step(tail[i]).outcome.Completed?) &&
               RunEach(step, tail).outcome == step(tail[k]).outcome;
      assert forall i :: 1 <= i < |xs| ==> xs[i] == tail[i - 1];
      assert RunEach(step, xs).outcome == step(xs[k + 1]).outcome;
    }
  }
}

=== FILE: Text.dfy ===
/** The Python string operations the downloader relies on, stated over
    `seq<char>`: `str.split(sep)`, `filter(None, …)`, `reversed`,
    `str.find`, `str.replace` for single characters and `str.rfind`. */
module Text {

  /** Number of occurrences of `c` in `s`. */
  function Count(s: string, c: char): (n: nat)
    ensures n <= |s|
    ensures n == 0 <==> c !in s
  {
    if |s| == 0 then 0
    else (if s[0] == c then 1 else 0) + Count(s[1..], c)
  }

  /** A string whose only `c` is at index `k` holds `c` once. */
  lemma {:induction false} CountOnce(s: string, c: char, k: nat)
    requires k < |s| && s[k] == c
    requires forall j :: 0 <= j < |s| && j != k ==> s[j] != c
    ensures Count(s, c) == 1
  {
    if k == 0 {
      assert c !in s[1..];
    } else {
      CountOnce(s[1..], c, k - 1);
    }
  }

  /** Python's `s.split(sep)` with an explicit one-character separator:
      every occurrence separates, so empty pieces are kept. */
  function Split(s: string, sep: char): (parts: seq<string>)
    ensures |parts| == Count(s, sep) + 1
    ensures forall i :: 0 <= i < |parts| ==> sep !in parts[i]
  {
    if |s| == 0 then [""]
    else
      var rest := Split(s[1..], sep);
      if s[0] == sep then [""] + rest
      else [[s[0]] + rest[0]] + rest[1..]
  }

  /** Python's `sep.join(parts)`. */
  function Join(parts: seq<string>, sep: char): string
    requires |parts| >= 1
  {
    if |parts| == 1 then parts[0]
    else parts[0] + [sep] + Join(parts[1..], sep)
  }

  /** Splitting and joining again gives back the original string. */
  lemma {:induction false} JoinSplit(s: string, sep: char)
    ensures Join(Split(s, sep), sep) == s
  {
    if |s| > 0 {
      var c, s' := s[0], s[1..];
      var rest := Split(s', sep);
      JoinSplit(s', sep);
      assert s == [c] + s';
      SplitCons(c, s', sep);
      if c == sep {
        var parts := [""] + rest;
        assert parts[0] == "" && parts[1..] == rest;
        assert Join(parts, sep) == "" + [sep] + Join(rest, sep);
      } else {
        var parts := [[c] + rest[0]] + rest[1..];
        assert parts[0] == [c] + rest[0] && parts[1..] == rest[1..];
        if |rest| > 1 {
          var j := Join(rest[1..], sep);
          assert Join(parts, sep) == ([c] + rest[0]) + [sep] + j;
          assert s' == rest[0] + [sep] + j;
          ConcatAssoc([c], rest[0], [sep]);
          ConcatAssoc([c], rest[0] + [sep], j);
        }
      }
    }
  }

  /** A piece without the separator glued in front of a string becomes part of
      the first piece of the split. */
  lemma {:induction false} SplitPrefix(p: string, t: string, sep: char)
    requires sep !in p
    ensures Split(p + t, sep) == [p + Split(t, sep)[0]] + Split(t, sep)[1..]
  {
    var parts := Split(t, sep);
    if |p| == 0 {
      assert p + t == t;
      assert p + parts[0] == parts[0];
      assert parts == [parts[0]] + parts[1..];
    } else {
      var c, p' := p[0], p[1..];
      assert p + t == [c] + (p' + t);
      assert sep !in p';
      SplitPrefix(p', t, sep);
      var inner := Split(p' + t, sep);
      assert inner[0] == p' + parts[0] && inner[1..] == parts[1..];
      SplitCons(c, p' + t, sep);
      assert Split(p + t, sep) == [[c] + inner[0]] + inner[1..];
      assert p == [c] + p';
      ConcatAssoc([c], p', parts[0]);
    }
  }

  lemma ConcatAssoc<T>(a: seq<T>, b: seq<T>, c: seq<T>)
    ensures a + (b + c) == (a + b) + c
  {
  }

  /** One step of `Split`: a leading separator starts a new empty piece, any
      other character joins the first piece. */
  lemma SplitCons(c: char, s: string, sep: char)
    ensures Split([c] + s, sep) ==
              if c == sep then [""] + Split(s, sep)
              else [[c] + Split(s, sep)[0]] + Split(s, sep)[1..]
  {
    var q := [c] + s;
    assert q[0] == c && q[1..] == s;
  }

  /** Joining pieces that do not contain the separator and splitting again
      gives back the pieces. */
  lemma {:induction false} SplitJoin(parts: seq<string>, sep: char)
    requires |parts| >= 1
    requires forall i :: 0 <= i < |parts| ==> sep !in parts[i]
    ensures Split(Join(parts, sep), sep) == parts
  {
    if |parts| == 1 {
      SplitPrefix(parts[0], "", sep);
      assert parts[0] + "" == parts[0];
      assert parts[0] + Split("", sep)[0] == parts[0];
    } else {
      var p0, tail := parts[0], parts[1..];
      var rest := Join(tail, sep);
      SplitJoin(tail, sep);
      var t := [sep] + rest;
      assert t[0] == sep && t[1..] == rest;
      assert Split(t, sep) == [""] + tail;
      SplitPrefix(p0, t, sep);
      assert Join(parts, sep) == p0 + t;
      assert p0 + "" == p0;
      assert parts == [p0] + tail;
    }
  }

  /** Python's `list(filter(None, parts))`: the non-empty pieces, in order. */
  function NonEmpty(parts: seq<string>): (r: seq<string>)
    ensures |r| <= |parts|
    ensures forall i :: 0 <= i < |r| ==> r[i] != ""
  {
    if |parts| == 0 then []
    else if parts[0] == "" then NonEmpty(parts[1..])
    else [parts[0]] + NonEmpty(parts[1..])
  }

  /** `filter(None, …)` drops exactly the empty pieces: what it keeps comes
      from the input, and every non-empty input piece is kept. */
  lemma {:induction false} NonEmptyKeeps(parts: seq<string>)
    ensures forall i :: 0 <= i < |NonEmpty(parts)| ==> NonEmpty(parts)[i] in parts
    ensures forall i :: 0 <= i < |parts| && parts[i] != "" ==> parts[i] in NonEmpty(parts)
  {
    if |parts| > 0 {
      var tail := parts[1..];
      NonEmptyKeeps(tail);
      assert forall i :: 1 <= i < |parts| ==> parts[i] == tail[i - 1];
      if parts[0] != "" {
        assert NonEmpty(parts) == [parts[0]] + NonEmpty(tail);
      }
    }
  }

  /** `filter(None, …)` on a single piece keeps it unless it is empty. */
  lemma NonEmptyOne(p: string)
    ensures NonEmpty([p]) == if p == "" then [] else [p]
  {
    assert [p][1..] == [];
  }

  /** Filtering distributes over concatenation, so the pieces kept are the
      non-empty ones in their original order, each as often as it occurs. */
  lemma {:induction false} NonEmptyAppend(a: seq<string>, b: seq<string>)
    ensures NonEmpty(a + b) == NonEmpty(a) + NonEmpty(b)
  {
    if |a| > 0 {
      assert (a + b)[1..] == a[1..] + b;
      NonEmptyAppend(a[1..], b);
    } else {
      assert a + b == b;
    }
  }

  /** Python's `list(reversed(s))`. */
  function Reverse<T>(s: seq<T>): (r: seq<T>)
    ensures |r| == |s|
    ensures forall i :: 0 <= i < |s| ==> r[i] == s[|s| - 1 - i]
  {
    if |s| == 0 then [] else Reverse(s[1..]) + [s[0]]
  }

  /** `needle` occurs in `hay` starting at index `i`. */
  predicate OccursAt(hay: string, needle: string, i: int) {
    0 <= i && i + |needle| <= |hay| && hay[i..i + |needle|] == needle
  }

  /** Python's `hay.find(needle, from)`: the lowest index at or after `from`
      where `needle` occurs, or -1 when there is none. */
  function FindFrom(hay: string, needle: string, from: nat): (r: int)
    requires from <= |hay|
    ensures r == -1 || from <= r <= |hay|
    decreases |hay| - from
  {
    if from + |needle| > |hay| then -1
    else if hay[from..from + |needle|] == needle then from
    else if from == |hay| then -1
    else FindFrom(hay, needle, from + 1)
  }

  /** `find` returns the first occurrence at or after `from`, and -1 exactly
      when there is none. */
  lemma {:induction false} FindFromSpec(hay: string, needle: string, from: nat)
    requires from <= |hay|
    ensures var r := FindFrom(hay, needle, from);
            && (r == -1 || OccursAt(hay, needle, r))
            && (r == -1 ==> forall j :: from <= j ==> !OccursAt(hay, needle, j))
            && (r != -1 ==> forall j :: from <= j < r ==> !OccursAt(hay, needle, j))
    decreases |hay| - from
  {
    if from + |needle| <= |hay| && hay[from..from + |needle|] != needle && from < |hay| {
      FindFromSpec(hay, needle, from + 1);
    }
  }

  /** Python's `hay.find(needle)`. */
  function Find(hay: string, needle: string): int {
    FindFrom(hay, needle, 0)
  }

  /** `hay.find(needle) >= 0`: `needle` is a substring of `hay`. */
  function Contains(hay: string, needle: string): (b: bool)
    ensures b <==> exists j :: OccursAt(hay, needle, j)
  {
    FindFromSpec(hay, needle, 0);
    Find(hay, needle) >= 0
  }

  /** Python's `s.replace(from, to)` for one-character `from` and `to`. */
  function ReplaceChar(s: string, from: char, to: char): (r: string)
    ensures |r| == |s|
    ensures forall i :: 0 <= i < |s| ==> r[i] == (if s[i] == from then to else s[i])
  {
    if |s| == 0 then []
    else [if s[0] == from then to else s[0]] + ReplaceChar(s[1..], from, to)
  }

  /** Python's `s.rfind(c)`: the highest index holding `c`, or -1. */
  function LastIndexOf(s: string, c: char): (r: int)
    ensures -1 <= r < |s|
    ensures r >= 0 ==> s[r] == c
    ensures forall j :: r < j < |s| ==> s[j] != c
  {
    if |s| == 0 then -1
    else if s[|s| - 1] == c then |s| - 1
    else LastIndexOf(s[..|s| - 1], c)
  }

  /** The index holding `c` with no `c` after it is what `rfind` finds. */
  lemma LastIndexOfIs(s: string, c: char, r: int)
    requires -1 <= r < |s| && (r >= 0 ==> s[r] == c)
    requires forall j :: r < j < |s| ==> s[j] != c
    ensures LastIndexOf(s, c) == r
  {
  }

  /** `rfind` over a concatenation looks in the second part first. */
  lemma {:induction false} LastIndexOfAppend(a: string, b: string, c: char)
    ensures c in b ==> LastIndexOf(a + b, c) == |a| + LastIndexOf(b, c)
    ensures c !in b ==> LastIndexOf(a + b, c) == LastIndexOf(a, c)
  {
    if |b| == 0 {
      assert a + b == a;
    } else {
      var b' := b[..|b| - 1];
      assert (a + b)[..|a + b| - 1] == a + b';
      if b[|b| - 1] != c {
        LastIndexOfAppend(a, b', c);
        assert c in b <==> c in b';
      }
    }
  }
}
